=== FILE: README.md ===
# Motion helper, lead form and newsletter signup, in Dafny

A model of three pieces of a marketing site written in React.

- **The hand-written `motion` helper** (`src/components/animations/Motion.tsx`).
  It stands in for framer-motion. `motion.div`, `motion.span`, `motion.p` and
  `motion.h2` share one body and differ only in the element they render, so
  the model has one component with an `ElementKind`. On mount it does three
  things:
  - it writes `initial` into the element's inline `opacity` and `transform`;
  - it builds the `transition` string;
  - with `whileInView` it hands the target to an `IntersectionObserver`
    (threshold 0.1); otherwise, with `animate`, it applies the target at
    once; with neither, nothing more happens.
  The observer fires the target on an intersecting notification. It
  disconnects after the first hit when `viewport.once` is truthy, and always
  on unmount.
- **The lead form** (`src/components/LeadForm.tsx`). It has four fields. The
  validator reports a missing name, e-mail or company (checked after trimming)
  and an e-mail that fails `/\S+@\S+\.\S+/`. Editing a field clears that
  field's error. A valid submit calls `onSubmitSuccess` and resets the fields.
- **The newsletter signup** (`sb1-tjufxmc6/src/components/NewsletterSection.tsx`).
  It has one address field. An empty or non-matching address that reaches
  the handler sets an error. A matching one shows a success flag, empties the
  field and schedules a timer that clears the flag. Both handlers are modelled
  on the string they receive; what the browser does to a `type="email"`
  input before that is not modelled (see "Left out").

Modules:

- `Wrappers`: `Option`.
- `Text`: the JavaScript white-space set, `trim`, `join` and `filter(Boolean)`
  on strings.
- `EmailPattern`: the e-mail pattern. It has three views that are proved
  equal:
  - the pattern's literal semantics (`RegexTest`: some substring matches);
  - a characterisation by the positions of `@` and `.` (`EmailShaped`);
  - a linear scanner (`TestEmail`).
- `Transform`: the `replace(/scale\([^)]*\)/, '')` rewrite. It is modelled
  character by character. It is also viewed structurally, as a list of
  `name(arg)` calls and spaces.
- `StyleEngine`: the initial fold, the target fold (`applyAnimation`) and
  the transition builder. The initial fold is proved equal to a closed form
  (`InitialFoldTransform`, `InitialFoldOpacity`). The target fold has a
  closed form only for targets without `scale` (`TargetFoldWithoutScale`);
  with `scale` it is described through the structural view of the rewrite.
  The transition builder is described by an append law and a one-entry law.
- `Motion`: props, mount, the observer lifecycle and host events.
- `LeadForm`, `Newsletter`: the two forms as state machines.

Host callbacks are explicit events:
- the motion component has an intersection notification and an unmount;
- the lead form has a field change and a submit;
- the newsletter has typing, a submit and a timer firing.

Keys are compared as strings, as `===` does. Style values are the text that
`String(value)` or the template literal has already produced.

A `scale` in the target does not compose with an earlier scale by
multiplication. The code (Motion.tsx:80-82) deletes the leftmost
`scale(...)` fragment of the current transform and appends the new one after
a space. The model follows the code. `Motion.ScaleInExample` shows the
result, a transform of ` scale(1)` with a leading space.

## Model

| member | source | states |
|---|---|---|
| Text.IsSpace | src/components/LeadForm.tsx:33-43 | the ECMAScript WhiteSpace and LineTerminator set that both `trim` and the pattern's `\s`/`\S` use; its role is stated by `Text.TrimStartSpec`, `Text.TrimEmptyIffBlank` and `EmailPattern.BlankNeverMatches` |
| Text.Trim | src/components/LeadForm.tsx:33 | `String.prototype.trim`: leading then trailing white space removed; its meaning is stated by `Text.TrimStartSpec`, `Text.TrimEndSpec` and `Text.TrimEmptyIffBlank` |
| Text.TrimStartSpec | src/components/LeadForm.tsx:33 | `trim` drops a leading run of JavaScript white space: the result is a suffix of the input, what was dropped is all white space, and the result does not start with white space |
| Text.TrimEndSpec | src/components/LeadForm.tsx:33 | the trailing half of `trim`: the result is a prefix of the input, what was dropped is all white space, and the result does not end with white space |
| Text.TrimEmptyIffBlank | src/components/LeadForm.tsx:33 | `!value.trim()` holds exactly when every character of the value is white space (or it is empty) |
| Text.DropEmpty | src/components/animations/Motion.tsx:65 | `filter(Boolean)` on strings keeps every non-empty part, and its result holds only non-empty parts of the input |
| Text.DropEmptySingle | src/components/animations/Motion.tsx:65 | one part survives exactly when it is non-empty; with the append law this fixes the survivors' order as the input's |
| Text.DropEmptyAppend | src/components/animations/Motion.tsx:65 | filtering distributes over concatenation |
| Text.Join | src/components/animations/Motion.tsx:66 | `Array.prototype.join(sep)`: the parts in order with one separator between neighbours; its meaning is stated by `Text.JoinAppend` and `Text.JoinNonEmpty` |
| Text.JoinAppend | src/components/animations/Motion.tsx:66 | `join` of two non-empty lists is the two joins with one separator between them |
| EmailPattern.RegexTest | src/components/LeadForm.tsx:39 | `/\S+@\S+\.\S+/.test(s)`: some substring is a non-space run, `@`, a non-space run, `.`, a non-space run; characterised by `EmailPattern.RegexTestIffShaped` |
| EmailPattern.RegexTestIffShaped | src/components/LeadForm.tsx:39 | `/\S+@\S+\.\S+/.test(s)` holds exactly when `s` has an `@` with a non-space before it, followed after at least one non-space by a `.` that has a non-space after it, with no space between the `@` and that `.` |
| EmailPattern.BlankNeverMatches | src/components/LeadForm.tsx:39 | a string that is empty or all white space never matches the pattern |
| EmailPattern.CandidateStep | src/components/LeadForm.tsx:39 | how an `@` that can start a match survives one more character of input |
| EmailPattern.TestEmail | src/components/LeadForm.tsx:39 | a single left-to-right scan decides the pattern: its answer equals both the pattern's semantics and the `@`/`.` characterisation |
| Transform.FirstClose | src/components/animations/Motion.tsx:81 | finds the first `)` at or after a position, or reports that there is none; this is where `[^)]*\)` must stop |
| Transform.ScaleMatchAt | src/components/animations/Motion.tsx:81 | a match starts at the front exactly when the string starts with `scale(` and has a `)` after it; the match then ends at the first such `)`, with no `)` in between |
| Transform.ReplaceScale | src/components/animations/Motion.tsx:81 | `replace(/scale\([^)]*\)/, '')`: never lengthens the string; its meaning is stated by `Transform.ReplaceScaleDeletesMatch`, `Transform.ReplaceScaleSkips` and `Transform.ReplaceScaleOnPieces` |
| Transform.ReplaceScaleDeletesMatch | src/components/animations/Motion.tsx:81 | `replace` shortens a transform by at least the 7 characters of `scale()` when it contains a match, and is the identity when it contains none |
| Transform.FragmentInTail | src/components/animations/Motion.tsx:81 | when no match starts at the front, any match lies in the rest of the string |
| Transform.NoMatchWithinFromAll | src/components/animations/Motion.tsx:81 | when no match starts at any of the first n positions, the rewrite can walk past them one character at a time |
| Transform.ReplaceScaleSkips | src/components/animations/Motion.tsx:81 | a prefix that holds no start of a match is copied unchanged, so the leftmost match is the one deleted |
| Transform.NoMatchInsideOther | src/components/animations/Motion.tsx:81 | no match of the pattern starts inside a space, or inside a `translateX(..)` or `translateY(..)` call whose argument is free of parentheses |
| Transform.ReplaceScaleAtFront | src/components/animations/Motion.tsx:81 | a `scale(v)` call at the front, with `v` free of parentheses, is exactly one match, and replacing it leaves what follows |
| Transform.ReplaceScaleOnPieces | src/components/animations/Motion.tsx:81 | on a transform built from spaces and `translateX`/`translateY`/`scale` calls whose arguments are free of parentheses, the rewrite deletes exactly the first `scale` call and keeps every other character |
| Transform.RenderAppend | src/components/animations/Motion.tsx:48-50 | a transform built in two parts renders as the two renderings concatenated |
| Transform.ScaleCountAppend | src/components/animations/Motion.tsx:48-50 | the number of `scale` calls in a concatenation is the sum of the two counts |
| Transform.DropFirstScaleCount | src/components/animations/Motion.tsx:81 | deleting the first `scale` call lowers the number of `scale` calls by one when there is one, and keeps the transform well formed |
| StyleEngine.ApplyInitial | src/components/animations/Motion.tsx:40-51 | one entry of `initial` never touches the transition, and an entry whose key is not `opacity`, `x`, `y` or `scale` changes nothing |
| StyleEngine.ApplyTarget | src/components/animations/Motion.tsx:72-83 | one entry of the target never touches the transition, and an unknown key changes nothing |
| StyleEngine.InitialFold | src/components/animations/Motion.tsx:40-52 | `Object.entries(initial).forEach(...)` in entry order; its result is stated by `StyleEngine.InitialFoldOpacity` and `StyleEngine.InitialFoldTransform` |
| StyleEngine.TargetFold | src/components/animations/Motion.tsx:72-84 | `applyAnimation` over the target's entries in order; its result is stated by `StyleEngine.TargetFoldOpacity`, `StyleEngine.TargetFoldWithoutScale` and `StyleEngine.TargetFoldKeepsOneScale` |
| StyleEngine.InitialFoldOpacity | src/components/animations/Motion.tsx:41-42 | after `initial`, the opacity is the value of the last `opacity` entry, or the previous opacity if there is none, and the transition is untouched |
| StyleEngine.InitialTransformSnocScale | src/components/animations/Motion.tsx:47-50 | the closed form obeys the `scale` step: appending a `scale` entry appends ` scale(v)` to a non-empty closed form and turns an empty one into `scale(v)` |
| StyleEngine.InitialTransformSnocOther | src/components/animations/Motion.tsx:40-51 | appending an entry whose key is neither `x`, `y` nor `scale` leaves the closed form as it was |
| StyleEngine.InitialFoldTransform | src/components/animations/Motion.tsx:43-51 | after `initial`, the transform is the last `x`/`y` entry's translate followed by ` scale(v)` for every later `scale` entry; with no `x`/`y` entry the scales follow the previous transform, the first without a leading space if that was empty |
| StyleEngine.InitialFoldIgnoresOtherKeys | src/components/animations/Motion.tsx:40-51 | entries with other keys can be removed from `initial` without changing the resulting style |
| StyleEngine.TargetFoldOpacity | src/components/animations/Motion.tsx:73-74 | after the target, the opacity is the value of its last `opacity` entry, or the previous one, and the transition is untouched |
| StyleEngine.TargetFoldIgnoresOtherKeys | src/components/animations/Motion.tsx:72-84 | entries with other keys can be removed from the target without changing the resulting style |
| StyleEngine.TargetFoldWithoutScale | src/components/animations/Motion.tsx:75-78 | a target without `scale` leaves the last `x`/`y` entry's translate as the transform, or the previous transform if it has none |
| StyleEngine.TargetFoldIdempotentWithoutScale | src/components/animations/Motion.tsx:72-84 | applying a target without `scale` twice gives the same style as applying it once |
| StyleEngine.LastValueIdempotent | src/components/animations/Motion.tsx:41-42 | reading the last value of a key, with that same result as the default, changes nothing |
| StyleEngine.TranslatePiece | src/components/animations/Motion.tsx:43-46 | an `x`/`y` entry with a value free of parentheses writes exactly one well-formed `translateX`/`translateY` call |
| StyleEngine.AppendScalePiece | src/components/animations/Motion.tsx:49 | appending ` scale(v)`, with `v` free of parentheses, to a well-formed transform adds one space and one `scale` call |
| StyleEngine.SingleTranslatePiece | src/components/animations/Motion.tsx:44-46 | a translate written by `x`/`y` with a value free of parentheses holds no `scale` call |
| StyleEngine.TargetScaleReplacesFragment | src/components/animations/Motion.tsx:80-82 | on a non-empty well-formed transform, a target `scale` entry deletes the first `scale` call and appends the new one, so the count of `scale` calls stays the same (or becomes 1 from 0) and the new call is last |
| StyleEngine.ApplyTargetKeepsOneScale | src/components/animations/Motion.tsx:72-83 | a target entry never raises a transform above one `scale` call |
| StyleEngine.TargetScaleKeepsOne | src/components/animations/Motion.tsx:79-82 | a target `scale` entry leaves a transform that had at most one `scale` call with at most one |
| StyleEngine.TargetFoldKeepsOneScale | src/components/animations/Motion.tsx:72-84 | a whole target keeps a transform with at most one `scale` call at most one |
| StyleEngine.InitialScaleAddsOne | src/components/animations/Motion.tsx:47-50 | an initial `scale` entry on a transform with at most c `scale` calls leaves one with at most c + 1, empty or not |
| StyleEngine.ApplyInitialScales | src/components/animations/Motion.tsx:40-51 | an initial entry adds a `scale` call only if its key is `scale`, and at most one |
| StyleEngine.InitialFoldScales | src/components/animations/Motion.tsx:40-52 | `initial` adds at most as many `scale` calls as it has `scale` entries |
| StyleEngine.TransitionString | src/components/animations/Motion.tsx:56-66 | the `style.transition` builder; its meaning is stated by `StyleEngine.TransitionStringAppend`, `StyleEngine.TransitionStringSingle` and `StyleEngine.TransitionStringEmptyIff` |
| StyleEngine.TransitionPart | src/components/animations/Motion.tsx:57-64 | the `map` callback: `duration` gives `all Ns`, `delay` gives `delay Ns`, any other key `""`; its meaning is stated by `StyleEngine.TransitionStringSingle` |
| StyleEngine.TransitionParts | src/components/animations/Motion.tsx:56-64 | `Object.entries(transition).map(...)`: one part per entry, in entry order; its meaning is stated by `StyleEngine.TransitionPartsAppend` and `StyleEngine.TransitionStringSingle` |
| StyleEngine.TransitionPartsAppend | src/components/animations/Motion.tsx:56-64 | the mapped parts of a concatenation are the concatenated parts |
| StyleEngine.TransitionStringAppend | src/components/animations/Motion.tsx:56-66 | the transition string of a concatenation joins the two strings with one space, and only when both are non-empty |
| Text.JoinNonEmpty | src/components/animations/Motion.tsx:65-66 | a join of non-empty parts is empty only when there are no parts |
| StyleEngine.TransitionStringSingle | src/components/animations/Motion.tsx:57-64 | one entry yields its part, which is empty exactly when the key is neither `duration` nor `delay` |
| StyleEngine.DefaultTransitionString | src/components/animations/Motion.tsx:24 | the default `{ duration: 0.5 }` yields `all 0.5s` |
| StyleEngine.TransitionStringEmptyIff | src/components/animations/Motion.tsx:56-66 | the transition string is empty exactly when no key is `duration` or `delay` |
| StyleEngine.LastTranslateSpec | src/components/animations/Motion.tsx:43-46 | the `x`/`y` entry that wins is an entry of the list and no later entry is `x`/`y`; there is none exactly when the list has no `x`/`y` entry |
| Motion.TargetOf | src/components/animations/Motion.tsx:30 | `whileInView` wins whenever present, even empty; otherwise `animate`; otherwise nothing |
| Motion.IsOnce | src/components/animations/Motion.tsx:25 | `viewport?.once` is truthy, with `{ once: true }` as the default viewport; stated by `Motion.ViewportOnceDefaults` |
| Motion.RootMargin | src/components/animations/Motion.tsx:99 | `viewport?.margin` when truthy, else `0px`; stated by `Motion.ViewportOnceDefaults` |
| Motion.PreparedStyle | src/components/animations/Motion.tsx:39-66 | the style after `initial` and the transition are written; stated by `Motion.PreparedStyleShape` |
| Motion.Mount | src/components/animations/Motion.tsx:32-108 | mounting keeps the element kind and the target, and starts an observer exactly when `whileInView` is given |
| Motion.Step | src/components/animations/Motion.tsx:89-113 | a host event applies the target (writes the target fold of the current style) exactly when it is an intersecting notification to a connected observer, which it then disconnects if one-shot and keeps otherwise; any other notification changes nothing; unmount disconnects a connected observer and keeps the style |
| Motion.Run | src/components/animations/Motion.tsx:89-113 | events never change the kind, the target or the one-shot flag, and each applies the target at most once |
| Motion.PreparedStyleShape | src/components/animations/Motion.tsx:39-66 | before any target, the opacity and transform are what `initial` describes in closed form, and the transition is the transition string of `transition`, which is `all 0.5s` when no `transition` is given |
| Motion.WhileInViewDefersTarget | src/components/animations/Motion.tsx:88-104 | with `whileInView`, mounting applies nothing and watches with the viewport's margin and threshold 0.1 |
| Motion.AnimateAppliesOnceAtMount | src/components/animations/Motion.tsx:105-108 | with only `animate`, the target is applied once at mount and no later event changes anything |
| Motion.NoTargetOnlyPrepares | src/components/animations/Motion.tsx:39-66 | with neither `animate` nor `whileInView`, the element keeps the prepared style forever |
| Motion.InertWithoutObserver | src/components/animations/Motion.tsx:110-114 | without a connected observer, no event changes anything |
| Motion.NotIntersectingIsNoop | src/components/animations/Motion.tsx:91 | a non-intersecting notification changes nothing |
| Motion.OnceDisconnectsAfterFiring | src/components/animations/Motion.tsx:91-95 | a one-shot observer applies the target and disconnects on its first hit |
| Motion.OnceInvariantKept | src/components/animations/Motion.tsx:91-95 | for a one-shot component, "connected, not yet applied; or not connected, applied at most once" holds after any events |
| Motion.OnceAppliesAtMostOnce | src/components/animations/Motion.tsx:93-95 | with `viewport.once` truthy, the target is applied at most once whatever happens |
| Motion.ViewportOnceDefaults | src/components/animations/Motion.tsx:25-99 | without `viewport` the component is one-shot; a `viewport` without `once` is not; the root margin is the given one, or `0px` when it is missing or empty (falsy) |
| Motion.NotOnceReapplies | src/components/animations/Motion.tsx:91-96 | a repeating observer applies the target on every one of n hits and stays connected |
| Motion.TeardownDisconnects | src/components/animations/Motion.tsx:110-114 | after unmount the observer is not connected and nothing changes any more |
| Motion.RunEndingInUnmount | src/components/animations/Motion.tsx:110-114 | whatever happened before, an unmount leaves no connected observer |
| Motion.OneScaleInvariantKept | src/components/animations/Motion.tsx:72-84 | a transform with at most one `scale` call keeps that bound through any events |
| Motion.AtMostOneScaleCall | src/components/animations/Motion.tsx:39-108 | with plain values and at most one `scale` in `initial`, the transform never holds two `scale` calls |
| Motion.FadeUpExample | sb1-tjufxmc6/src/components/NewsletterSection.tsx:36-40 | the section's fade-up mounts hidden (`0`, `translateY(20px)`, `all 0.5s`), and its first intersection shows it (`1`, `translateY(0px)`) and disconnects |
| Motion.ScaleInExample | src/components/animations/Motion.tsx:39-108 | a `motion.div` given the hero card's props (`initial {opacity: 0, scale: 0.95}`, `animate {opacity: 1, scale: 1}`, `transition {duration: 0.8, delay: 0.2}`) mounts with transform ` scale(1)`, with a leading space left by the deletion, and transition `all 0.8s delay 0.2s` |
| Motion.ScaleInInitial | src/components/animations/Motion.tsx:40-52 | the initial fold of the hero card's `initial {opacity: 0, scale: 0.95}` on an empty style leaves opacity `0` and transform `scale(0.95)` |
| Motion.ScaleInTarget | src/components/animations/Motion.tsx:72-84 | the target fold of the hero card's `animate {opacity: 1, scale: 1}` turns `scale(0.95)` into ` scale(1)` and sets opacity `1` |
| Motion.DurationAndDelay | src/components/animations/Motion.tsx:56-66 | `{ duration: 0.8, delay: 0.2 }` yields `all 0.8s delay 0.2s` |
| LeadForm.Set | src/components/LeadForm.tsx:18 | a change writes the named field and keeps the other three |
| LeadForm.FieldError | src/components/LeadForm.tsx:33-45 | `interest` is never reported, and every message is non-empty |
| LeadForm.FieldErrorMeaning | src/components/LeadForm.tsx:33-45 | name and company are reported exactly when blank, with their "required" messages; the e-mail is reported as required when blank and as invalid when present but not `@`/`.`-shaped |
| LeadForm.Validate | src/components/LeadForm.tsx:30-46 | the error record holds exactly the fields that fail, each with its message |
| LeadForm.ValidateForm | src/components/LeadForm.tsx:47-48 | the form is valid exactly when name and company are not blank and the e-mail is shaped, which is exactly when the record is empty |
| LeadForm.HandleChange | src/components/LeadForm.tsx:16-28 | a change sets that field only, removes that field's error if it is non-empty, and never adds or alters another error |
| LeadForm.HandleSubmit | src/components/LeadForm.tsx:51-70 | a submit stores the new record; when valid it calls the callback once and resets the fields, otherwise it keeps the fields and does not call it |
| LeadForm.ResetFailsValidation | src/components/LeadForm.tsx:63-68 | the reset values fail validation with the three "required" messages |
| LeadForm.SubmitTwiceCallsOnce | src/components/LeadForm.tsx:54-68 | a second submit straight after a successful one does not call the callback again |
| LeadForm.ErrorsStayWellFormed | src/components/LeadForm.tsx:14-47 | every reachable error message is non-empty and `interest` never has one |
| LeadForm.ChangeClearsOnlyThatError | src/components/LeadForm.tsx:20-27 | in any reachable state, editing a field removes exactly that field's error |
| LeadForm.EmailErrorCases | src/components/LeadForm.tsx:37-41 | a blank e-mail is reported as required, a present but malformed one as invalid, and a shaped one not at all |
| Newsletter.HandleSubmit | sb1-tjufxmc6/src/components/NewsletterSection.tsx:10-31 | a shaped address clears the error, shows success, empties the field and schedules one timer; any other only sets the error message |
| Newsletter.HandleType | sb1-tjufxmc6/src/components/NewsletterSection.tsx:53 | typing changes only the address; an error stays shown |
| Newsletter.TimerFires | sb1-tjufxmc6/src/components/NewsletterSection.tsx:28-30 | a scheduled timer turns the success flag off and changes nothing else |
| Newsletter.EmptyCheckIsRedundant | sb1-tjufxmc6/src/components/NewsletterSection.tsx:14 | the `!email` test adds nothing to the pattern test |
| Newsletter.WhitespaceOnlyRejected | sb1-tjufxmc6/src/components/NewsletterSection.tsx:14-16 | a non-empty, all-white-space address passes the `!email` test yet is rejected |
| Newsletter.SameEmailRuleAsLeadForm | sb1-tjufxmc6/src/components/NewsletterSection.tsx:14 | the signup accepts exactly the addresses for which the lead form reports no e-mail error |
| Newsletter.RejectedSubmitIsStable | sb1-tjufxmc6/src/components/NewsletterSection.tsx:14-17 | a rejected submit keeps the address and the flag, and repeating it changes nothing more |
| Newsletter.NoSuccessWithoutValidSubmit | sb1-tjufxmc6/src/components/NewsletterSection.tsx:14-24 | the success flag never turns on unless some submit sees a shaped address |

## Left out

- Rendering: JSX, `children`, `className`, the rest props and the
  conditional messages are not modelled. Only the three inline style
  properties and the components' state are.
- The style a caller might pass through the rest props is not modelled.
  The element starts with no inline style.
- The browser's CSS object model is not modelled. It would normalise or
  reject assigned values, for instance `transition: all 0.8s delay 0.2s`,
  which is not a valid shorthand. The model keeps the strings exactly as the
  code builds them.
- Rendering a prop value (`String(value)` and template literals) is not
  modelled. Values are given as the text they render to.
- Transform.NoMatchInsideOther: holds only for call arguments without parentheses, which is what the pages pass; once an argument contains `)` the pattern can stop early inside it.
- Transform.ReplaceScaleAtFront: holds only for call arguments without parentheses, which is what the pages pass; once an argument contains `)` the pattern can stop early inside it.
- Transform.ReplaceScaleOnPieces: holds only for call arguments without parentheses, which is what the pages pass; once an argument contains `)` the pattern can stop early inside it.
- StyleEngine.TargetScaleReplacesFragment: holds only for values without parentheses, which is what the pages pass; once a value contains `)` the pattern can stop early inside it.
- StyleEngine.TargetScaleKeepsOne: holds only for values without parentheses, which is what the pages pass; once a value contains `)` the pattern can stop early inside it.
- StyleEngine.ApplyTargetKeepsOneScale: holds only for values without parentheses, which is what the pages pass; once a value contains `)` the pattern can stop early inside it.
- StyleEngine.TargetFoldKeepsOneScale: holds only for values without parentheses, which is what the pages pass; once a value contains `)` the pattern can stop early inside it.
- StyleEngine.InitialScaleAddsOne: holds only for values without parentheses, which is what the pages pass; once a value contains `)` the pattern can stop early inside it.
- StyleEngine.ApplyInitialScales: holds only for values without parentheses, which is what the pages pass; once a value contains `)` the pattern can stop early inside it.
- StyleEngine.InitialFoldScales: holds only for values without parentheses, which is what the pages pass; once a value contains `)` the pattern can stop early inside it.
- StyleEngine.TranslatePiece: holds only for values without parentheses, which is what the pages pass; a value such as `scale(2` makes the translate call hold a `scale` match.
- StyleEngine.AppendScalePiece: holds only for values without parentheses, which is what the pages pass; once a value contains `)` the pattern can stop early inside it.
- StyleEngine.SingleTranslatePiece: holds only for values without parentheses, which is what the pages pass; a value such as `scale(2` makes the translate call hold a `scale` match.
- Motion.OneScaleInvariantKept: holds only for values without parentheses, which is what the pages pass; once a value contains `)` the pattern can stop early inside it.
- Motion.AtMostOneScaleCall: holds only for values without parentheses, which is what the pages pass; once a value contains `)` the pattern can stop early inside it.
- The `ref.current` null check (Motion.tsx:33) and the `!element` check
  (Motion.tsx:69) are not modelled. The element is always present after
  mount.
- The effect runs once with the first props (dependency list `[]`).
  Re-renders are not modelled.
- The intersection geometry is not modelled. The host is an input that
  reports whether the element intersects. Only the first entry is read, so
  a notification is one boolean.
- `LeadForm.HandleChange` reads the current error record. The component
  reads the record of the last render, which is the same when events are
  handled one at a time.
- The only field names are the four controls of the form. A change event
  from any other `name` cannot occur.
- `console.log` and `preventDefault` are not modelled. They do not affect
  the state.
- The newsletter timer's 5000 ms delay is not modelled as time. A timer is
  a pending event. The comment above it says 3 seconds and the code says
  5000.
- The browser's handling of the `type="email"` inputs (LeadForm.tsx:97,
  NewsletterSection.tsx:51) is not modelled. Neither form sets `noValidate`,
  so a browser strips line breaks and leading and trailing ASCII white space
  from the value, and blocks the submit of a non-empty value that HTML does
  not accept as an e-mail address before either handler runs. The handlers
  are modelled as if they received any string, so `Newsletter.HandleSubmit`,
  `Newsletter.WhitespaceOnlyRejected` and `LeadForm.EmailErrorCases` describe
  the handlers' own logic; in a browser "Email is invalid" and "Please enter
  a valid email address" appear only for addresses HTML accepts and the
  pattern rejects, such as `a@b`.
- `EmailPattern.TestEmail` is a scanner that is equal to the pattern, not
  the engine's backtracking search.
- Strings are sequences of Unicode scalar values, while JavaScript strings
  are UTF-16 code units, so a lone surrogate cannot be represented. On every
  string that can be, `trim` and the e-mail pattern give the same answers,
  since neither the white-space set nor the pattern's characters involve
  surrogates.

=== FILE: email_pattern.dfy ===
/**
 The e-mail check shared by the lead form and the newsletter form: the
 regular expression `/\S+@\S+\.\S+/` tested without anchors, so it accepts
 any string that CONTAINS a match anywhere.
 */
module EmailPattern {
  import opened Text

  /** `s[a..e]` is matched by `\S+@\S+\.\S+` with the `@` at `p` and the
      literal `.` at `q`. The three `\S+` runs may themselves contain `@`
      and `.`, which are non-whitespace. */
  predicate MatchesAt(s: string, a: int, p: int, q: int, e: int)
    requires 0 <= a < p < q < e <= |s|
  {
    && NonSpaceRun(s, a, p)
    && s[p] == '@'
    && p + 1 < q && NonSpaceRun(s, p + 1, q)
    && s[q] == '.'
    && q + 1 < e && NonSpaceRun(s, q + 1, e)
  }

  /** `RegExp.prototype.test` for the pattern: some substring matches. */
  predicate RegexTest(s: string) {
    exists a, p, q, e | 0 <= a < p < q < e <= |s| :: MatchesAt(s, a, p, q, e)
  }

  /** An `@` at `p` and a `.` at `q` with a non-whitespace character just
      before the `@`, a non-empty non-whitespace run strictly between them,
      and a non-whitespace character just after the `.`. */
  predicate ShapedAt(s: string, p: int, q: int)
    requires 0 < p < q < |s|
  {
    && s[p] == '@' && s[q] == '.'
    && !IsSpace(s[p - 1])
    && p + 1 < q && NonSpaceRun(s, p + 1, q)
    && q + 1 < |s| && !IsSpace(s[q + 1])
  }

  /** The pattern's matches reduced to the two anchoring characters. */
  predicate EmailShaped(s: string) {
    exists p, q | 0 < p < q < |s| :: ShapedAt(s, p, q)
  }

  /** The regular expression accepts exactly the strings of the reduced
      shape: every match can be shrunk to one character on each side, and
      one character on each side is already a match. */
  lemma RegexTestIffShaped(s: string)
    ensures RegexTest(s) <==> EmailShaped(s)
  {
    if RegexTest(s) {
      var a, p, q, e :| 0 <= a < p < q < e <= |s| && MatchesAt(s, a, p, q, e);
      assert ShapedAt(s, p, q);
    }
    if EmailShaped(s) {
      var p, q :| 0 < p < q < |s| && ShapedAt(s, p, q);
      assert MatchesAt(s, p - 1, p, q, q + 2);
    }
  }

  /** No whitespace-only string (in particular not "") passes the test. */
  lemma BlankNeverMatches(s: string)
    requires IsBlank(s)
    ensures !RegexTest(s)
  {
  }

  /** `@` at `p` whose preceding character is non-whitespace and whose
      following characters up to (not including) `i` are non-whitespace: a
      `.` at `i` would complete a match if `p + 1 < i`. */
  predicate Candidate(s: string, p: int, i: int)
    requires 0 <= i <= |s|
  {
    0 < p < i && s[p] == '@' && !IsSpace(s[p - 1]) && NonSpaceRun(s, p + 1, i)
  }

  /** How a candidate survives one more character: it survives a
      non-whitespace character, and an `@` just read becomes one when the
      character before it is non-whitespace. */
  lemma CandidateStep(s: string, p: int, i: int)
    requires 0 <= i < |s|
    ensures Candidate(s, p, i + 1) <==>
      (Candidate(s, p, i) && !IsSpace(s[i])) || (p == i && 0 < i && s[i] == '@' && !IsSpace(s[i - 1]))
  {
  }

  /** Decides the test in one left-to-right pass, remembering the leftmost
      `@` that could still start a match. */
  method TestEmail(s: string) returns (b: bool)
    ensures b <==> EmailShaped(s)
    ensures b <==> RegexTest(s)
  {
    RegexTestIffShaped(s);
    var first := -1;
    var i := 0;
    while i < |s|
      invariant 0 <= i <= |s|
      invariant -1 <= first < i
      invariant first >= 0 ==> Candidate(s, first, i)
      invariant first >= 0 ==> forall p :: 0 < p < first ==> !Candidate(s, p, i)
      invariant first < 0 ==> forall p :: 0 < p < i ==> !Candidate(s, p, i)
      invariant forall p, q :: 0 < p < q < i && q < |s| ==> !ShapedAt(s, p, q)
    {
      if s[i] == '.' && i + 1 < |s| && !IsSpace(s[i + 1]) && first >= 0 && first + 1 < i {
        assert ShapedAt(s, first, i);
        return true;
      }
      forall q | 0 < q < i ensures !ShapedAt(s, q, i) || i + 1 >= |s| {
        if i + 1 < |s| && ShapedAt(s, q, i) {
          assert Candidate(s, q, i);
        }
      }
      var j := i + 1;
      forall p | 0 < p < j ensures Candidate(s, p, j) ==> Candidate(s, p, i) || p == i {
        CandidateStep(s, p, i);
      }
      if IsSpace(s[i]) {
        forall p | 0 < p < j ensures !Candidate(s, p, j) {
          CandidateStep(s, p, i);
        }
        first := -1;
      } else if first < 0 && s[i] == '@' && i > 0 && !IsSpace(s[i - 1]) {
        first := i;
      } else {
        CandidateStep(s, i, i);
        if first >= 0 {
          CandidateStep(s, first, i);
        }
      }
      i := j;
    }
    return false;
  }
}

=== FILE: lead_form.dfy ===
/**
 The lead-capture form: four fields, a validator that reports at most one
 error per required field, per-field editing that clears that field's
 error, and a submit that calls the success callback and resets the form.
 */
module LeadForm {
  import opened Text
  import opened EmailPattern
  import opened Wrappers

  /** The `name` attributes of the form's four controls. */
  datatype Field = Name | Email | Company | Interest

  datatype FormData = FormData(name: string, email: string, company: string, interest: string)

  /** The `useState` initial value, also the value a successful submit
      resets to. */
  const InitialData := FormData("", "", "", "Product Development")

  const NameRequired := "Name is required"
  const EmailRequired := "Email is required"
  const EmailInvalid := "Email is invalid"
  const CompanyRequired := "Company is required"

  /** The form's state: field values, the error record, and how many times
      `onSubmitSuccess` has been called. */
  datatype State = State(data: FormData, errors: map<Field, string>, successCalls: nat)

  const InitialState := State(InitialData, map[], 0)

  function Get(d: FormData, f: Field): (r: string) {
    match f
    case Name => d.name
    case Email => d.email
    case Company => d.company
    case Interest => d.interest
  }

  /** `{ ...prev, [name]: value }`. */
  function Set(d: FormData, f: Field, v: string): (r: FormData)
    ensures Get(r, f) == v
    ensures forall g :: g != f ==> Get(r, g) == Get(d, g)
  {
    match f
    case Name => d.(name := v)
    case Email => d.(email := v)
    case Company => d.(company := v)
    case Interest => d.(interest := v)
  }

  /** The message `validateForm` records for one field, if any: a required
      field whose trimmed value is empty is missing; a present e-mail is
      tested, untrimmed, against the pattern. `interest` is never checked. */
  function FieldError(d: FormData, f: Field): (r: Option<string>)
    ensures f == Interest ==> r.None?
    ensures r.Some? ==> r.value != ""
  {
    match f
    case Name => if Trim(d.name) == "" then Some(NameRequired) else None
    case Email =>
      if Trim(d.email) == "" then Some(EmailRequired)
      else if !RegexTest(d.email) then Some(EmailInvalid)
      else None
    case Company => if Trim(d.company) == "" then Some(CompanyRequired) else None
    case Interest => None
  }

  /** What the checks mean: name and company are reported exactly when
      blank; the e-mail as missing when blank and as invalid when present
      but not shaped like an address. */
  lemma FieldErrorMeaning(d: FormData, f: Field)
    ensures f == Name ==> (FieldError(d, f).Some? <==> IsBlank(d.name))
    ensures f == Company ==> (FieldError(d, f).Some? <==> IsBlank(d.company))
    ensures f == Email ==> (FieldError(d, f).Some? <==> IsBlank(d.email) || !EmailShaped(d.email))
    ensures f == Name && FieldError(d, f).Some? ==> FieldError(d, f).value == "Name is required"
    ensures f == Company && FieldError(d, f).Some? ==> FieldError(d, f).value == "Company is required"
    ensures f == Email && FieldError(d, f).Some? ==>
      FieldError(d, f).value == if IsBlank(d.email) then "Email is required" else "Email is invalid"
  {
    match f
    case Name => TrimEmptyIffBlank(d.name);
    case Company => TrimEmptyIffBlank(d.company);
    case Email =>
      TrimEmptyIffBlank(d.email);
      RegexTestIffShaped(d.email);
    case Interest =>
  }

  /** The error record `validateForm` builds: one entry per failing field,
      holding that field's message. */
  function Validate(d: FormData): (errors: map<Field, string>)
    ensures Name in errors <==> FieldError(d, Name).Some?
    ensures Email in errors <==> FieldError(d, Email).Some?
    ensures Company in errors <==> FieldError(d, Company).Some?
    ensures Interest !in errors
    ensures Name in errors ==> errors[Name] == FieldError(d, Name).value
    ensures Email in errors ==> errors[Email] == FieldError(d, Email).value
    ensures Company in errors ==> errors[Company] == FieldError(d, Company).value
  {
    var name, email, company := FieldError(d, Name), FieldError(d, Email), FieldError(d, Company);
    var withName: map<Field, string> := if name.Some? then map[Name := name.value] else map[];
    var withEmail := if email.Some? then withName[Email := email.value] else withName;
    if company.Some? then withEmail[Company := company.value] else withEmail
  }

  /** `validateForm`: stores the error record and reports whether it is
      empty. */
  function ValidateForm(s: State): (r: (State, bool))
    ensures r.0.data == s.data && r.0.successCalls == s.successCalls
    ensures r.1 <==> !IsBlank(s.data.name) && !IsBlank(s.data.company) && EmailShaped(s.data.email)
    ensures r.1 <==> r.0.errors == map[]
  {
    var d := s.data;
    var errors := Validate(d);
    assert FieldError(d, Name).None? && FieldError(d, Email).None? && FieldError(d, Company).None?
      <==> !IsBlank(d.name) && !IsBlank(d.company) && EmailShaped(d.email) by {
      FieldErrorMeaning(d, Name);
      FieldErrorMeaning(d, Email);
      FieldErrorMeaning(d, Company);
      if IsBlank(d.email) {
        BlankNeverMatches(d.email);
        RegexTestIffShaped(d.email);
      }
    }
    assert errors == map[] <==> FieldError(d, Name).None? && FieldError(d, Email).None? && FieldError(d, Company).None? by {
      if errors != map[] {
        var f :| f in errors;
      }
    }
    (s.(errors := errors), |errors| == 0)
  }

  /** `handleChange`: sets the field, and deletes that field's error when it
      is truthy (a non-empty message). */
  function HandleChange(s: State, f: Field, v: string): (r: State)
    ensures Get(r.data, f) == v
    ensures forall g :: g != f ==> Get(r.data, g) == Get(s.data, g)
    ensures f in s.errors && s.errors[f] != "" ==> f !in r.errors
    ensures forall g :: g != f ==> (g in r.errors <==> g in s.errors)
    ensures forall g :: g in r.errors ==> g in s.errors && r.errors[g] == s.errors[g]
    ensures r.successCalls == s.successCalls
  {
    var data := Set(s.data, f, v);
    if f in s.errors && s.errors[f] != "" then
      State(data, s.errors - {f}, s.successCalls)
    else
      State(data, s.errors, s.successCalls)
  }

  /** `handleSubmit`: when validation passes, call `onSubmitSuccess` once and
      reset the fields; otherwise only the error record changes. */
  function HandleSubmit(s: State): (r: State)
    ensures r.errors == Validate(s.data)
    ensures ValidateForm(s).1 ==> r.data == InitialData && r.successCalls == s.successCalls + 1
    ensures !ValidateForm(s).1 ==> r.data == s.data && r.successCalls == s.successCalls
  {
    var (validated, ok) := ValidateForm(s);
    if ok then State(InitialData, validated.errors, s.successCalls + 1) else validated
  }

  datatype Event = Change(field: Field, value: string) | Submit

  function Apply(s: State, ev: Event): (r: State) {
    match ev
    case Change(f, v) => HandleChange(s, f, v)
    case Submit => HandleSubmit(s)
  }

  function Run(s: State, evs: seq<Event>): (r: State)
    decreases |evs|
  {
    if evs == [] then s else Run(Apply(s, evs[0]), evs[1..])
  }

  // ---------------------------------------------------------------------
  // Properties

  /** The reset values fail validation: every required field is empty. */
  lemma ResetFailsValidation()
    ensures Validate(InitialData) == map[Name := "Name is required", Email := "Email is required", Company := "Company is required"]
    ensures !ValidateForm(State(InitialData, map[], 0)).1
  {
    var d := InitialData;
    assert IsBlank(d.name) && IsBlank(d.email) && IsBlank(d.company);
    assert FieldError(d, Name) == Some("Name is required");
    assert FieldError(d, Email) == Some("Email is required");
    assert FieldError(d, Company) == Some("Company is required");
    assert FieldError(d, Interest) == None;
    var errs := Validate(d);
    var expected := map[Name := "Name is required", Email := "Email is required", Company := "Company is required"];
    assert errs.Keys == expected.Keys;
  }

  /** A second submit straight after a successful one does not call the
      callback again. */
  lemma SubmitTwiceCallsOnce(s: State)
    requires ValidateForm(s).1
    ensures HandleSubmit(HandleSubmit(s)).successCalls == s.successCalls + 1
    ensures HandleSubmit(HandleSubmit(s)).data == InitialData
  {
    ResetFailsValidation();
  }

  /** Every message in the record is non-empty, and `interest` never has
      one. */
  ghost predicate ErrorsWellFormed(s: State) {
    Interest !in s.errors && forall f :: f in s.errors ==> s.errors[f] != ""
  }

  /** Starting from the mounted form, every reachable state keeps its errors
      well formed, so editing a field always clears that field's error. */
  lemma {:induction false} ErrorsStayWellFormed(s: State, evs: seq<Event>)
    requires ErrorsWellFormed(s)
    ensures ErrorsWellFormed(Run(s, evs))
    decreases |evs|
  {
    if evs != [] {
      var s' := Apply(s, evs[0]);
      assert ErrorsWellFormed(s') by {
        if evs[0].Change? {
          var f := evs[0].field;
          assert forall g :: g in s'.errors ==> g in s.errors && s'.errors[g] == s.errors[g];
        }
      }
      ErrorsStayWellFormed(s', evs[1..]);
    }
  }

  /** In any reachable state, editing a field removes its error, keeps every
      other error, and never adds one. */
  lemma ChangeClearsOnlyThatError(evs: seq<Event>, f: Field, v: string)
    ensures var s := Run(InitialState, evs);
      var r := HandleChange(s, f, v);
      && f !in r.errors
      && r.errors == s.errors - {f}
  {
    var s := Run(InitialState, evs);
    ErrorsStayWellFormed(InitialState, evs);
    var r := HandleChange(s, f, v);
    if f in s.errors {
      assert s.errors[f] != "";
    }
    assert r.errors == s.errors - {f};
  }

  /** An invalid e-mail that is present is reported as invalid rather than
      missing, and there is never more than one e-mail error. */
  lemma EmailErrorCases(d: FormData)
    ensures !IsBlank(d.email) && !EmailShaped(d.email) ==> Email in Validate(d) && Validate(d)[Email] == "Email is invalid"
    ensures IsBlank(d.email) ==> Email in Validate(d) && Validate(d)[Email] == "Email is required"
    ensures EmailShaped(d.email) ==> Email !in Validate(d)
  {
    FieldErrorMeaning(d, Email);
    if IsBlank(d.email) {
      RegexTestIffShaped(d.email);
      BlankNeverMatches(d.email);
    }
  }
}

=== FILE: motion.dfy ===
/**
 The `motion` helper's component: one body shared by `motion.div`,
 `motion.span`, `motion.p` and `motion.h2`, which differ only in the element
 they render. Its mount effect prepares the inline style, then either
 applies the target at once (`animate`) or hands it to an intersection
 observer (`whileInView`); the effect's cleanup disconnects the observer.

 Host callbacks are explicit events: an intersection notification (only the
 first entry's `isIntersecting` is read) and the unmount that runs the
 cleanup. Events arrive one at a time, after the mount effect.
 */
module Motion {
  import opened Wrappers
  import opened StyleEngine
  import opened Transform

  /** The four exported variants of the component. */
  datatype ElementKind = Div | Span | Paragraph | Heading2

  /** The `viewport` prop; `once` is read for truthiness, `margin` with a
      fallback. */
  datatype Viewport = Viewport(once: Option<bool>, margin: Option<string>)

  /** The props the component reads. Spec objects are entry sequences in
      `Object.entries` order; an absent prop is `None`. */
  datatype Props = Props(
    kind: ElementKind,
    initial: Option<seq<Entry>>,
    animate: Option<seq<Entry>>,
    whileInView: Option<seq<Entry>>,
    transition: Option<seq<Entry>>,
    viewport: Option<Viewport>)

  /** The `viewport` default parameter, `{ once: true }`. */
  const DefaultViewport := Viewport(Some(true), None)

  /** The intersection threshold, fixed at 0.1 whatever the props say. */
  const Threshold: real := 0.1

  datatype ObserverOptions = ObserverOptions(rootMargin: string, threshold: real)

  /** The lifecycle of the component's single observer. */
  datatype Observer = NoObserver | Observing(options: ObserverOptions) | Disconnected(options: ObserverOptions)

  /** A mounted component: its element's inline style, the target it
      animates to, whether the observer is one-shot, the observer, and how
      many times the target has been applied (`applyAnimation` calls). */
  datatype Instance = Instance(
    kind: ElementKind,
    style: Style,
    target: seq<Entry>,
    once: bool,
    observer: Observer,
    applied: nat)

  datatype Event = Intersect(isIntersecting: bool) | Unmount

  /** `whileInView || animate || {}`: an object is always truthy, so a
      present `whileInView` wins even when it is empty. */
  function TargetOf(p: Props): (t: seq<Entry>)
    ensures p.whileInView.Some? ==> t == p.whileInView.value
    ensures p.whileInView.None? && p.animate.Some? ==> t == p.animate.value
    ensures p.whileInView.None? && p.animate.None? ==> t == []
  {
    p.whileInView.GetOr(p.animate.GetOr([]))
  }

  /** `viewport?.once` is truthy. */
  predicate IsOnce(p: Props) {
    p.viewport.GetOr(DefaultViewport).once == Some(true)
  }

  /** `viewport?.margin || '0px'`: "" is falsy and falls back too. */
  function RootMargin(p: Props): (r: string) {
    match p.viewport.GetOr(DefaultViewport).margin
    case Some(m) => if m != "" then m else "0px"
    case None => "0px"
  }

  /** The style once the mount effect has applied `initial` and set the
      transition, before any target is applied. */
  function PreparedStyle(p: Props): (r: Style) {
    var s := if p.initial.Some? then InitialFold(EmptyStyle, p.initial.value) else EmptyStyle;
    s.(transition := TransitionString(p.transition.GetOr(DefaultTransition)))
  }

  /** The mount effect. */
  function Mount(p: Props): (c: Instance)
    ensures c.kind == p.kind && c.target == TargetOf(p) && c.once == IsOnce(p)
    ensures c.observer.Observing? <==> p.whileInView.Some?
    ensures c.observer.Disconnected? == false
  {
    var s := PreparedStyle(p);
    var target := TargetOf(p);
    if p.whileInView.Some? then
      Instance(p.kind, s, target, IsOnce(p), Observing(ObserverOptions(RootMargin(p), Threshold)), 0)
    else if p.animate.Some? then
      Instance(p.kind, TargetFold(s, target), target, IsOnce(p), NoObserver, 1)
    else
      Instance(p.kind, s, target, IsOnce(p), NoObserver, 0)
  }

  /** One host event. An intersecting notification reaches the callback only
      while the observer is connected; it applies the target and, when
      one-shot, disconnects. Unmount runs the cleanup, which disconnects a
      connected observer. */
  function Step(c: Instance, ev: Event): (c': Instance)
    ensures c'.kind == c.kind && c'.target == c.target && c'.once == c.once
    ensures c'.applied == c.applied || c'.applied == c.applied + 1
    ensures c'.applied == c.applied + 1 <==> ev == Intersect(true) && c.observer.Observing?
    ensures c'.style == if ev == Intersect(true) && c.observer.Observing? then TargetFold(c.style, c.target) else c.style
    ensures ev == Intersect(true) && c.observer.Observing? ==>
      c'.observer == if c.once then Disconnected(c.observer.options) else c.observer
    ensures ev == Intersect(false) || (ev.Intersect? && !c.observer.Observing?) ==> c' == c
    ensures ev == Unmount ==>
      c'.observer == (if c.observer.Observing? then Disconnected(c.observer.options) else c.observer)
  {
    match ev
    case Intersect(hit) =>
      if c.observer.Observing? && hit then
        var fired := c.(style := TargetFold(c.style, c.target), applied := c.applied + 1);
        if c.once then fired.(observer := Disconnected(c.observer.options)) else fired
      else c
    case Unmount =>
      if c.observer.Observing? then c.(observer := Disconnected(c.observer.options)) else c
  }

  /** A sequence of host events, in order. */
  function Run(c: Instance, evs: seq<Event>): (r: Instance)
    ensures r.kind == c.kind && r.target == c.target && r.once == c.once
    ensures c.applied <= r.applied <= c.applied + |evs|
    decreases |evs|
  {
    if evs == [] then c else Run(Step(c, evs[0]), evs[1..])
  }

  // ---------------------------------------------------------------------
  // Properties

  /** The prepared style in closed form: the opacity of the last `opacity`
      entry of `initial`, its transform as `InitialTransform` describes, and
      the transition built from `transition` (default `all 0.5s`). */
  lemma PreparedStyleShape(p: Props)
    ensures var es := p.initial.GetOr([]);
      && PreparedStyle(p).opacity == LastValue(es, "opacity", "")
      && PreparedStyle(p).transform == InitialTransform("", es)
    ensures PreparedStyle(p).transition == TransitionString(p.transition.GetOr(DefaultTransition))
    ensures p.transition.None? ==> PreparedStyle(p).transition == "all 0.5s"
  {
    var es := p.initial.GetOr([]);
    InitialFoldOpacity(EmptyStyle, es);
    InitialFoldTransform(EmptyStyle, es);
    DefaultTransitionString();
  }

  /** With `whileInView` present nothing is applied at mount, even when
      `animate` is also given: the element keeps the prepared style and an
      observer with margin `viewport.margin` (or `0px`) and threshold 0.1
      waits for the target. */
  lemma WhileInViewDefersTarget(p: Props)
    requires p.whileInView.Some?
    ensures Mount(p).style == PreparedStyle(p) && Mount(p).applied == 0
    ensures Mount(p).target == p.whileInView.value
    ensures Mount(p).observer == Observing(ObserverOptions(RootMargin(p), 0.1))
  {
  }

  /** With only `animate`, the target is applied exactly once, at mount,
      right after the prepared style; no observer ever exists, and no later
      event changes the element. */
  lemma {:induction false} AnimateAppliesOnceAtMount(p: Props, evs: seq<Event>)
    requires p.whileInView.None? && p.animate.Some?
    ensures Mount(p).style == TargetFold(PreparedStyle(p), p.animate.value)
    ensures Run(Mount(p), evs) == Mount(p)
    ensures Run(Mount(p), evs).applied == 1 && Run(Mount(p), evs).observer == NoObserver
  {
    InertWithoutObserver(Mount(p), evs);
  }

  /** With neither `animate` nor `whileInView`, only the prepared style ever
      takes effect. */
  lemma {:induction false} NoTargetOnlyPrepares(p: Props, evs: seq<Event>)
    requires p.whileInView.None? && p.animate.None?
    ensures Run(Mount(p), evs).style == PreparedStyle(p)
    ensures Run(Mount(p), evs).applied == 0 && Run(Mount(p), evs).observer == NoObserver
  {
    InertWithoutObserver(Mount(p), evs);
  }

  /** Without a connected observer no event changes anything. */
  lemma {:induction false} InertWithoutObserver(c: Instance, evs: seq<Event>)
    requires !c.observer.Observing?
    ensures Run(c, evs) == c
    decreases |evs|
  {
    if evs != [] {
      InertWithoutObserver(Step(c, evs[0]), evs[1..]);
    }
  }

  /** A notification that the element is not intersecting changes nothing. */
  lemma NotIntersectingIsNoop(c: Instance)
    ensures Step(c, Intersect(false)) == c
  {
  }

  /** A one-shot observer disconnects right after its first intersecting
      notification, having applied the target. */
  lemma OnceDisconnectsAfterFiring(c: Instance)
    requires c.once && c.observer.Observing?
    ensures Step(c, Intersect(true)).observer == Disconnected(c.observer.options)
    ensures Step(c, Intersect(true)).style == TargetFold(c.style, c.target)
    ensures Step(c, Intersect(true)).applied == c.applied + 1
  {
  }

  /** The state every reachable one-shot instance is in: a connected
      observer has not fired yet, and the target was applied at most once. */
  ghost predicate OnceInvariant(c: Instance) {
    c.once ==> c.applied <= 1 && (c.observer.Observing? ==> c.applied == 0)
  }

  lemma {:induction false} OnceInvariantKept(c: Instance, evs: seq<Event>)
    requires OnceInvariant(c)
    ensures OnceInvariant(Run(c, evs))
    decreases |evs|
  {
    if evs != [] {
      OnceInvariantKept(Step(c, evs[0]), evs[1..]);
    }
  }

  /** With a truthy `once` (the default) the target is applied at most once,
      whatever the host reports. */
  lemma OnceAppliesAtMostOnce(p: Props, evs: seq<Event>)
    requires IsOnce(p)
    ensures Run(Mount(p), evs).applied <= 1
  {
    assert OnceInvariant(Mount(p));
    OnceInvariantKept(Mount(p), evs);
  }

  /** The default viewport is one-shot; a viewport given without `once` is
      not. The root margin is the given one unless it is missing or empty,
      both of which are falsy and fall back to `0px`. */
  lemma ViewportOnceDefaults(p: Props)
    ensures p.viewport.None? ==> IsOnce(p)
    ensures p.viewport.Some? && p.viewport.value.once.None? ==> !IsOnce(p)
    ensures p.viewport.None? || p.viewport.value.margin.None? ==> RootMargin(p) == "0px"
    ensures p.viewport.Some? && p.viewport.value.margin == Some("") ==> RootMargin(p) == "0px"
    ensures p.viewport.Some? && p.viewport.value.margin.Some? && p.viewport.value.margin.value != ""
      ==> RootMargin(p) == p.viewport.value.margin.value
  {
  }

  /** `n` intersecting notifications. */
  function Hits(n: nat): (evs: seq<Event>)
    ensures |evs| == n && forall i :: 0 <= i < n ==> evs[i] == Intersect(true)
  {
    if n == 0 then [] else [Intersect(true)] + Hits(n - 1)
  }

  /** Without `once` the observer stays connected and applies the target on
      every intersecting notification. */
  lemma {:induction false} NotOnceReapplies(c: Instance, n: nat)
    requires !c.once && c.observer.Observing?
    ensures Run(c, Hits(n)).applied == c.applied + n
    ensures Run(c, Hits(n)).observer == c.observer
    decreases n
  {
    if n > 0 {
      assert Hits(n)[1..] == Hits(n - 1);
      NotOnceReapplies(Step(c, Intersect(true)), n - 1);
    }
  }

  /** After teardown no observer is connected, whether or not it ever
      fired, and no later event changes anything. */
  lemma {:induction false} TeardownDisconnects(c: Instance, evs: seq<Event>)
    ensures !Step(c, Unmount).observer.Observing?
    ensures Run(Step(c, Unmount), evs) == Step(c, Unmount)
  {
    InertWithoutObserver(Step(c, Unmount), evs);
  }

  /** Any history ending in teardown leaves no connected observer. */
  lemma {:induction false} RunEndingInUnmount(c: Instance, evs: seq<Event>)
    ensures !Run(c, evs + [Unmount]).observer.Observing?
    decreases |evs|
  {
    if evs == [] {
      assert Run(c, [Unmount]) == Run(Step(c, Unmount), []);
    } else {
      assert (evs + [Unmount])[1..] == evs[1..] + [Unmount];
      RunEndingInUnmount(Step(c, evs[0]), evs[1..]);
    }
  }

  /** The transform is a well-formed call sequence with at most one
      `scale` call, and the target's values are rendered numbers. */
  ghost predicate OneScaleInvariant(c: Instance) {
    ScalesAtMost(c.style.transform, 1) && PlainValues(c.target)
  }

  lemma {:induction false} OneScaleInvariantKept(c: Instance, evs: seq<Event>)
    requires OneScaleInvariant(c)
    ensures OneScaleInvariant(Run(c, evs))
    decreases |evs|
  {
    if evs != [] {
      if evs[0] == Intersect(true) && c.observer.Observing? {
        TargetFoldKeepsOneScale(c.style, c.target);
      }
      OneScaleInvariantKept(Step(c, evs[0]), evs[1..]);
    }
  }

  /** With values that are rendered numbers and an `initial` spec holding
      at most one `scale` key (an object has distinct keys), every transform
      the element ever carries is a sequence of `translateX`, `translateY`
      and `scale` calls with at most one `scale` call. */
  lemma AtMostOneScaleCall(p: Props, evs: seq<Event>)
    requires p.initial.Some? ==> PlainValues(p.initial.value) && ScaleEntries(p.initial.value) <= 1
    requires PlainValues(TargetOf(p))
    ensures ScalesAtMost(Run(Mount(p), evs).style.transform, 1)
  {
    ScalesAtMostEmpty();
    if p.initial.Some? {
      InitialFoldScales(EmptyStyle, p.initial.value, 0);
      var ps :| WellFormed(ps) && Render(ps) == PreparedStyle(p).transform && ScaleCount(ps) <= ScaleEntries(p.initial.value);
      assert ScaleCount(ps) <= 1;
    } else {
      assert PreparedStyle(p).transform == "";
    }
    assert ScalesAtMost(PreparedStyle(p).transform, 1);
    if p.whileInView.None? && p.animate.Some? {
      TargetFoldKeepsOneScale(PreparedStyle(p), TargetOf(p));
    }
    OneScaleInvariantKept(Mount(p), evs);
  }

  // ---------------------------------------------------------------------
  // Worked examples

  /** A fade-up on scroll: `initial {opacity: 0, y: 20}`, `whileInView
      {opacity: 1, y: 0}`, `transition {duration: 0.5}`, `viewport {once:
      true}`. Mounting prepares the hidden style and watches; the first
      intersection shows the element and, the observer being one-shot,
      disconnects it. */
  lemma FadeUpExample()
    ensures var p := Props(Div, Some([("opacity", "0"), ("y", "20")]), None,
                           Some([("opacity", "1"), ("y", "0")]), Some([("duration", "0.5")]),
                           Some(Viewport(Some(true), None)));
      var c := Mount(p);
      var c' := Run(c, [Intersect(true)]);
      && c.style == Style("0", "translateY(20px)", "all 0.5s")
      && c.observer == Observing(ObserverOptions("0px", 0.1))
      && c'.style == Style("1", "translateY(0px)", "all 0.5s")
      && c'.observer.Disconnected? && c'.applied == 1
  {
    var es: seq<Entry> := [("opacity", "0"), ("y", "20")];
    assert es[..1] == [("opacity", "0")];
    assert [("opacity", "0")][..0] == [];
    var ts: seq<Entry> := [("opacity", "1"), ("y", "0")];
    assert ts[..1] == [("opacity", "1")];
    assert [("opacity", "1")][..0] == [];
    DefaultTransitionString();
  }

  /** A scale-in on mount: `initial {opacity: 0, scale: 0.95}`, `animate
      {opacity: 1, scale: 1}`, `transition {duration: 0.8, delay: 0.2}`. The
      target's `scale` deletes the initial `scale(0.95)` and appends its own
      fragment after a space, leaving a leading space in the transform; the
      delay becomes a separate `delay 0.2s` word of the transition. */
  lemma ScaleInExample()
    ensures var p := Props(Div, Some([("opacity", "0"), ("scale", "0.95")]),
                           Some([("opacity", "1"), ("scale", "1")]), None,
                           Some([("duration", "0.8"), ("delay", "0.2")]), None);
      var c := Mount(p);
      && PreparedStyle(p).transform == "scale(0.95)"
      && c.style == Style("1", " scale(1)", "all 0.8s delay 0.2s")
      && c.observer == NoObserver && c.applied == 1
  {
    ScaleInInitial();
    ScaleInTarget("all 0.8s delay 0.2s");
    DurationAndDelay();
  }

  /** The initial fold of `{opacity: 0, scale: 0.95}` on an empty style. */
  lemma ScaleInInitial()
    ensures InitialFold(EmptyStyle, [("opacity", "0"), ("scale", "0.95")]) == Style("0", "scale(0.95)", "")
  {
    var es: seq<Entry> := [("opacity", "0"), ("scale", "0.95")];
    assert es[..1] == [("opacity", "0")];
    assert [("opacity", "0")][..0] == [];
  }

  /** The target fold of `{opacity: 1, scale: 1}` on the prepared style. */
  lemma ScaleInTarget(transition: string)
    ensures TargetFold(Style("0", "scale(0.95)", transition), [("opacity", "1"), ("scale", "1")])
      == Style("1", " scale(1)", transition)
  {
    var ts: seq<Entry> := [("opacity", "1"), ("scale", "1")];
    assert ts[..1] == [("opacity", "1")];
    assert [("opacity", "1")][..0] == [];
    ReplaceScaleAtFront(Call("scale", "0.95"), "");
    assert PieceText(Call("scale", "0.95")) + "" == "scale(0.95)";
  }

  /** `{duration: 0.8, delay: 0.2}` yields its two parts joined by one
      space. */
  lemma DurationAndDelay()
    ensures TransitionString([("duration", "0.8"), ("delay", "0.2")]) == "all 0.8s delay 0.2s"
  {
    var d, l: Entry := ("duration", "0.8"), ("delay", "0.2");
    assert [d, l] == [d] + [l];
    TransitionStringAppend([d], [l]);
    TransitionStringSingle(d);
    TransitionStringSingle(l);
    var x, y := TransitionPart(d), TransitionPart(l);
    assert x == "all 0.8s" && y == "delay 0.2s";
    assert x + " " + y == "all 0.8s delay 0.2s";
  }
}

=== FILE: newsletter.dfy ===
/**
 The newsletter signup: one e-mail field, an error line, and a success flag
 that a five-second timer clears again. The timer is an explicit event;
 `pendingTimers` counts the timers scheduled and not yet fired.
 */
module Newsletter {
  import opened Text
  import opened EmailPattern
  import LeadForm

  datatype State = State(email: string, isSubmitted: bool, error: string, pendingTimers: nat)

  const InitialState := State("", false, "", 0)

  const InvalidEmail := "Please enter a valid email address"

  /** `handleSubmit`: an empty or non-matching address only sets the error;
      a matching one clears the error, shows the success flag, empties the
      field and schedules the timer. No trimming happens. */
  function HandleSubmit(s: State): (r: State)
    ensures EmailShaped(s.email) ==> r == State("", true, "", s.pendingTimers + 1)
    ensures !EmailShaped(s.email) ==> r == s.(error := "Please enter a valid email address")
  {
    RegexTestIffShaped(s.email);
    if s.email == "" || !RegexTest(s.email) then
      s.(error := InvalidEmail)
    else
      var cleared := s.(error := "");
      var submitted := cleared.(isSubmitted := true, email := "");
      submitted.(pendingTimers := s.pendingTimers + 1)
  }

  /** The input's `onChange`: only the address changes; an error stays
      shown until the next submit. */
  function HandleType(s: State, v: string): (r: State)
    ensures r.email == v && r.isSubmitted == s.isSubmitted && r.error == s.error
    ensures r.pendingTimers == s.pendingTimers
  {
    s.(email := v)
  }

  /** A scheduled timer fires: the success flag goes off and nothing else
      changes. With no timer scheduled nothing happens. */
  function TimerFires(s: State): (r: State)
    ensures s.pendingTimers > 0 ==> r == s.(isSubmitted := false, pendingTimers := s.pendingTimers - 1)
    ensures s.pendingTimers == 0 ==> r == s
  {
    if s.pendingTimers > 0 then s.(isSubmitted := false, pendingTimers := s.pendingTimers - 1) else s
  }

  datatype Event = Type(value: string) | Submit | Timer

  function Apply(s: State, ev: Event): (r: State) {
    match ev
    case Type(v) => HandleType(s, v)
    case Submit => HandleSubmit(s)
    case Timer => TimerFires(s)
  }

  function Run(s: State, evs: seq<Event>): (r: State)
    decreases |evs|
  {
    if evs == [] then s else Run(Apply(s, evs[0]), evs[1..])
  }

  // ---------------------------------------------------------------------
  // Properties

  /** The `!email` test adds nothing: the empty string never matches. */
  lemma EmptyCheckIsRedundant(e: string)
    ensures (e == "" || !RegexTest(e)) <==> !RegexTest(e)
  {
    if e == "" {
      BlankNeverMatches(e);
    }
  }

  /** A whitespace-only address is non-empty yet rejected: it is not
      trimmed, but the pattern needs non-whitespace around `@` and `.`. */
  lemma WhitespaceOnlyRejected(s: State)
    requires s.email != "" && IsBlank(s.email)
    ensures HandleSubmit(s) == s.(error := "Please enter a valid email address")
    ensures HandleSubmit(s).isSubmitted == s.isSubmitted
  {
    BlankNeverMatches(s.email);
    RegexTestIffShaped(s.email);
  }

  /** The signup accepts exactly the addresses for which the lead form
      reports no e-mail error. */
  lemma SameEmailRuleAsLeadForm(d: LeadForm.FormData)
    ensures HandleSubmit(State(d.email, false, "", 0)).isSubmitted <==> LeadForm.Email !in LeadForm.Validate(d)
  {
    LeadForm.EmailErrorCases(d);
  }

  /** A submit that is rejected leaves the address and the success flag as
      they were; resubmitting the same address is rejected again. */
  lemma RejectedSubmitIsStable(s: State)
    requires !EmailShaped(s.email)
    ensures HandleSubmit(s).email == s.email && HandleSubmit(s).isSubmitted == s.isSubmitted
    ensures HandleSubmit(HandleSubmit(s)) == HandleSubmit(s)
  {
  }

  /** While no submit succeeds, the success flag never turns on. */
  lemma {:induction false} NoSuccessWithoutValidSubmit(s: State, evs: seq<Event>)
    requires !s.isSubmitted
    requires forall i :: 0 <= i < |evs| ==> evs[i].Submit? ==> !EmailShaped(Run(s, evs[..i]).email)
    ensures !Run(s, evs).isSubmitted
    decreases |evs|
  {
    if evs != [] {
      var s' := Apply(s, evs[0]);
      assert Run(s, evs[..0]) == s;
      assert !s'.isSubmitted;
      forall i | 0 <= i < |evs| - 1 && evs[1..][i].Submit?
        ensures !EmailShaped(Run(s', evs[1..][..i]).email)
      {
        assert evs[..i + 1] == [evs[0]] + evs[1..][..i];
        assert Run(s, evs[..i + 1]) == Run(s', evs[1..][..i]);
      }
      NoSuccessWithoutValidSubmit(s', evs[1..]);
    }
  }
}

=== FILE: style_engine.dfy ===
/**
 The style engine of the hand-written `motion` helper: three pure functions
 on an element's inline style.

 - the initial fold, applied once over the entries of the `initial` spec;
 - the transition builder, turning the `transition` spec into the
   `style.transition` string;
 - the target fold (`applyAnimation`), applied over the entries of the
   target spec (`whileInView`, else `animate`).

 A spec object is a sequence of `(key, value)` entries in the order
 `Object.entries` yields them; values are the strings the template literals
 render (numbers already turned into text).
 */
module StyleEngine {
  import opened Text
  import opened Transform
  import opened Wrappers

  /** One `[key, value]` pair of `Object.entries(spec)`. */
  type Entry = (string, string)

  /** The three inline style properties the helper writes. "" is an unset
      property, which JavaScript treats as falsy. */
  datatype Style = Style(opacity: string, transform: string, transition: string)

  /** A freshly mounted element has no inline style. */
  const EmptyStyle := Style("", "", "")

  predicate IsTranslateKey(k: string) { k == "y" || k == "x" }

  /** The keys both folds act on; every other key is ignored. */
  predicate IsStyleKey(k: string) {
    k == "opacity" || IsTranslateKey(k) || k == "scale"
  }

  /** The transform written for an `x` or `y` entry. */
  function TranslateText(e: Entry): (r: string)
    requires IsTranslateKey(e.0)
  {
    if e.0 == "y" then "translateY(" + e.1 + "px)" else "translateX(" + e.1 + "px)"
  }

  /** The fragment the `scale` branches append. */
  function ScaleText(v: string): (r: string) {
    "scale(" + v + ")"
  }

  // ---------------------------------------------------------------------
  // Initial fold

  /** One step of the initial fold: `opacity` sets the opacity, `y`/`x`
      overwrite the whole transform, `scale` appends to a non-empty
      transform (or starts an empty one). Other keys do nothing and no key
      touches the transition. */
  function ApplyInitial(st: Style, e: Entry): (r: Style)
    ensures r.transition == st.transition
    ensures !IsStyleKey(e.0) ==> r == st
  {
    var (key, value) := e;
    if key == "opacity" then st.(opacity := value)
    else if key == "y" then st.(transform := "translateY(" + value + "px)")
    else if key == "x" then st.(transform := "translateX(" + value + "px)")
    else if key == "scale" then
      st.(transform := if st.transform != "" then st.transform + " " + ScaleText(value) else ScaleText(value))
    else st
  }

  /** `Object.entries(initial).forEach(...)`: the steps applied left to
      right (written as "fold the prefix, then apply the last entry"). */
  function InitialFold(st: Style, es: seq<Entry>): (r: Style)
    decreases |es|
  {
    if es == [] then st else ApplyInitial(InitialFold(st, es[..|es| - 1]), es[|es| - 1])
  }

  // ---------------------------------------------------------------------
  // Target fold

  /** One step of `applyAnimation`. It differs from `ApplyInitial` only in
      the `scale` branch of a non-empty transform, which first deletes the
      leftmost `scale(...)` fragment. */
  function ApplyTarget(st: Style, e: Entry): (r: Style)
    ensures r.transition == st.transition
    ensures !IsStyleKey(e.0) ==> r == st
  {
    var (key, value) := e;
    if key == "opacity" then st.(opacity := value)
    else if key == "y" then st.(transform := "translateY(" + value + "px)")
    else if key == "x" then st.(transform := "translateX(" + value + "px)")
    else if key == "scale" then
      st.(transform := if st.transform != "" then ReplaceScale(st.transform) + " " + ScaleText(value) else ScaleText(value))
    else st
  }

  /** `Object.entries(animatedProps).forEach(...)`. */
  function TargetFold(st: Style, es: seq<Entry>): (r: Style)
    decreases |es|
  {
    if es == [] then st else ApplyTarget(TargetFold(st, es[..|es| - 1]), es[|es| - 1])
  }

  // ---------------------------------------------------------------------
  // Transition builder

  /** `duration` becomes `all Ns`, `delay` becomes `delay Ns`, anything else
      the empty string (which `filter(Boolean)` then drops). */
  function TransitionPart(e: Entry): (r: string) {
    if e.0 == "duration" then "all " + e.1 + "s"
    else if e.0 == "delay" then "delay " + e.1 + "s"
    else ""
  }

  predicate IsTransitionKey(k: string) { k == "duration" || k == "delay" }

  function TransitionParts(es: seq<Entry>): (r: seq<string>)
    ensures |r| == |es|
  {
    seq(|es|, i requires 0 <= i < |es| => TransitionPart(es[i]))
  }

  /** `Object.entries(transition).map(...).filter(Boolean).join(' ')`. */
  function TransitionString(es: seq<Entry>): (r: string) {
    Join(DropEmpty(TransitionParts(es)), " ")
  }

  /** The `transition` default parameter, `{ duration: 0.5 }`. */
  const DefaultTransition: seq<Entry> := [("duration", "0.5")]

  // ---------------------------------------------------------------------
  // Reference definitions, read from the end of the entry list

  /** The value of the last entry with key `k`, or `dflt` if there is none. */
  function LastValue(es: seq<Entry>, k: string, dflt: string): (r: string)
    decreases |es|
  {
    if es == [] then dflt
    else if es[|es| - 1].0 == k then es[|es| - 1].1
    else LastValue(es[..|es| - 1], k, dflt)
  }

  /** The last `x`/`y` entry, if any. */
  function LastTranslate(es: seq<Entry>): (r: Option<Entry>)
    ensures r.Some? ==> IsTranslateKey(r.value.0)
    decreases |es|
  {
    if es == [] then None
    else if IsTranslateKey(es[|es| - 1].0) then Some(es[|es| - 1])
    else LastTranslate(es[..|es| - 1])
  }

  /** ` scale(v)` for every `scale` entry after the last `x`/`y` entry (after
      the start of the list when there is none), in order. */
  function ScalesAfterTranslate(es: seq<Entry>): (r: string)
    ensures r == [] || |r| >= 8
    decreases |es|
  {
    if es == [] then ""
    else if IsTranslateKey(es[|es| - 1].0) then ""
    else ScalesAfterTranslate(es[..|es| - 1]) + (if es[|es| - 1].0 == "scale" then " " + ScaleText(es[|es| - 1].1) else "")
  }

  /** The transform the initial fold leaves, in closed form: the last `x`/`y`
      entry wins outright and every later `scale` is appended to it; with no
      `x`/`y` entry the scales are appended to the starting transform, the
      first one without its leading space when that transform is empty. */
  function InitialTransform(base: string, es: seq<Entry>): (r: string) {
    var tail := ScalesAfterTranslate(es);
    match LastTranslate(es)
    case Some(e) => TranslateText(e) + tail
    case None => if base == "" then (if tail == "" then "" else tail[1..]) else base + tail
  }

  function StyleEntries(es: seq<Entry>): (r: seq<Entry>)
    ensures forall i :: 0 <= i < |r| ==> IsStyleKey(r[i].0)
    decreases |es|
  {
    if es == [] then []
    else StyleEntries(es[..|es| - 1]) + (if IsStyleKey(es[|es| - 1].0) then [es[|es| - 1]] else [])
  }

  predicate HasScaleKey(es: seq<Entry>) {
    exists i :: 0 <= i < |es| && es[i].0 == "scale"
  }

  // ---------------------------------------------------------------------
  // Properties of the initial fold

  lemma FoldLast(st: Style, es: seq<Entry>, e: Entry)
    ensures InitialFold(st, es + [e]) == ApplyInitial(InitialFold(st, es), e)
    ensures TargetFold(st, es + [e]) == ApplyTarget(TargetFold(st, es), e)
  {
    assert (es + [e])[..|es|] == es;
  }

  /** After the initial fold, the opacity is the value of the last `opacity`
      entry, or the starting opacity if there is none; the transition is
      untouched. */
  lemma {:induction false} InitialFoldOpacity(st: Style, es: seq<Entry>)
    ensures InitialFold(st, es).opacity == LastValue(es, "opacity", st.opacity)
    ensures InitialFold(st, es).transition == st.transition
    decreases |es|
  {
    if es != [] {
      InitialFoldOpacity(st, es[..|es| - 1]);
    }
  }

  /** `LastTranslate` finds the entry that wins: it is an `x`/`y` entry of
      the list and no later entry is one; it finds none exactly when the list
      has no `x`/`y` entry. */
  lemma {:induction false} LastTranslateSpec(es: seq<Entry>)
    ensures LastTranslate(es).Some? ==>
      exists j :: (0 <= j < |es| && es[j] == LastTranslate(es).value
                   && forall k :: j < k < |es| ==> !IsTranslateKey(es[k].0))
    ensures LastTranslate(es).None? <==> forall i :: 0 <= i < |es| ==> !IsTranslateKey(es[i].0)
    decreases |es|
  {
    if es != [] {
      var init := es[..|es| - 1];
      LastTranslateSpec(init);
      if IsTranslateKey(es[|es| - 1].0) {
        assert es[|es| - 1] == LastTranslate(es).value;
      } else if LastTranslate(init).Some? {
        var j :| 0 <= j < |init| && init[j] == LastTranslate(init).value
          && forall k :: j < k < |init| ==> !IsTranslateKey(init[k].0);
        assert es[j] == init[j];
        assert forall k :: j < k < |es| ==> !IsTranslateKey(es[k].0) by {
          forall k | j < k < |es| ensures !IsTranslateKey(es[k].0) {
            if k < |init| {
              assert es[k] == init[k];
            }
          }
        }
      } else {
        forall i | 0 <= i < |es| ensures !IsTranslateKey(es[i].0) {
          if i < |init| {
            assert es[i] == init[i];
          }
        }
      }
    }
  }

  /** A `scale` entry at the end of the initial fold: an empty transform
      becomes `scale(v)`, a non-empty one gets ` scale(v)` appended. */
  lemma NoTranslateScaleTail(base: string, a: string, v: string)
    requires a == [] || |a| >= 8
    ensures var tail := " " + ScaleText(v);
      var t := if base == "" then (if a == "" then "" else a[1..]) else base + a;
      var u := if base == "" then (if a + tail == "" then "" else (a + tail)[1..]) else base + (a + tail);
      u == if t != "" then t + tail else ScaleText(v)
  {
    var tail := " " + ScaleText(v);
    if base == "" {
      if a != "" {
        assert (a + tail)[1..] == a[1..] + tail;
      } else {
        assert (a + tail)[1..] == ScaleText(v);
      }
    }
  }

  /** An `x`/`y` entry at the end makes the closed form its own text. */
  lemma InitialTransformSnocTranslate(base: string, es: seq<Entry>)
    requires |es| > 0 && IsTranslateKey(es[|es| - 1].0)
    ensures InitialTransform(base, es) == TranslateText(es[|es| - 1])
  {
  }

  /** Any other key but `scale` at the end leaves the closed form as it was. */
  lemma InitialTransformSnocOther(base: string, es: seq<Entry>)
    requires |es| > 0 && !IsTranslateKey(es[|es| - 1].0) && es[|es| - 1].0 != "scale"
    ensures InitialTransform(base, es) == InitialTransform(base, es[..|es| - 1])
  {
    assert ScalesAfterTranslate(es) == ScalesAfterTranslate(es[..|es| - 1]) + "";
  }

  /** A `scale` entry at the end turns an empty closed form into `scale(v)`
      and appends ` scale(v)` to a non-empty one. */
  lemma InitialTransformSnocScale(base: string, es: seq<Entry>)
    requires |es| > 0 && es[|es| - 1].0 == "scale"
    ensures var t, v := InitialTransform(base, es[..|es| - 1]), es[|es| - 1].1;
      InitialTransform(base, es) == if t != "" then t + " " + ScaleText(v) else ScaleText(v)
  {
    if LastTranslate(es[..|es| - 1]).Some? {
      SnocScaleAfterTranslate(base, es);
    } else {
      SnocScaleNoTranslate(base, es);
    }
  }

  lemma SnocScaleAfterTranslate(base: string, es: seq<Entry>)
    requires |es| > 0 && es[|es| - 1].0 == "scale" && LastTranslate(es[..|es| - 1]).Some?
    ensures var t, v := InitialTransform(base, es[..|es| - 1]), es[|es| - 1].1;
      InitialTransform(base, es) == t + " " + ScaleText(v) && t != ""
  {
    var init, v := es[..|es| - 1], es[|es| - 1].1;
    var a := ScalesAfterTranslate(init);
    var tail := " " + ScaleText(v);
    assert ScalesAfterTranslate(es) == a + tail;
    var head := TranslateText(LastTranslate(init).value);
    assert InitialTransform(base, init) == head + a;
    assert head + (a + tail) == (head + a) + tail;
  }

  lemma SnocScaleNoTranslate(base: string, es: seq<Entry>)
    requires |es| > 0 && es[|es| - 1].0 == "scale" && LastTranslate(es[..|es| - 1]).None?
    ensures var t, v := InitialTransform(base, es[..|es| - 1]), es[|es| - 1].1;
      InitialTransform(base, es) == if t != "" then t + " " + ScaleText(v) else ScaleText(v)
  {
    var init, v := es[..|es| - 1], es[|es| - 1].1;
    var a := ScalesAfterTranslate(init);
    assert ScalesAfterTranslate(es) == a + " " + ScaleText(v);
    NoTranslateScaleTail(base, a, v);
  }

  /** After the initial fold the transform is `InitialTransform`: an `x` or
      `y` entry discards everything written before it, and `scale` entries
      append ` scale(v)`. */
  lemma {:induction false} InitialFoldTransform(st: Style, es: seq<Entry>)
    ensures InitialFold(st, es).transform == InitialTransform(st.transform, es)
    decreases |es|
  {
    if es != [] {
      var init, e := es[..|es| - 1], es[|es| - 1];
      InitialFoldTransform(st, init);
      if IsTranslateKey(e.0) {
        InitialTransformSnocTranslate(st.transform, es);
      } else if e.0 == "scale" {
        InitialTransformSnocScale(st.transform, es);
      } else {
        InitialTransformSnocOther(st.transform, es);
      }
    }
  }

  /** Entries whose key is not one of the four style keys can be deleted
      from the initial spec without changing the outcome. */
  lemma {:induction false} InitialFoldIgnoresOtherKeys(st: Style, es: seq<Entry>)
    ensures InitialFold(st, es) == InitialFold(st, StyleEntries(es))
    decreases |es|
  {
    if es != [] {
      var init, e := es[..|es| - 1], es[|es| - 1];
      InitialFoldIgnoresOtherKeys(st, init);
      if IsStyleKey(e.0) {
        FoldLast(st, StyleEntries(init), e);
      } else {
        assert StyleEntries(es) == StyleEntries(init) + [];
        assert StyleEntries(init) + [] == StyleEntries(init);
      }
    }
  }

  // ---------------------------------------------------------------------
  // Properties of the target fold

  /** Like the initial fold, the target fold leaves the opacity at the last
      `opacity` value and never touches the transition. */
  lemma {:induction false} TargetFoldOpacity(st: Style, es: seq<Entry>)
    ensures TargetFold(st, es).opacity == LastValue(es, "opacity", st.opacity)
    ensures TargetFold(st, es).transition == st.transition
    decreases |es|
  {
    if es != [] {
      TargetFoldOpacity(st, es[..|es| - 1]);
    }
  }

  lemma {:induction false} TargetFoldIgnoresOtherKeys(st: Style, es: seq<Entry>)
    ensures TargetFold(st, es) == TargetFold(st, StyleEntries(es))
    decreases |es|
  {
    if es != [] {
      var init, e := es[..|es| - 1], es[|es| - 1];
      TargetFoldIgnoresOtherKeys(st, init);
      if IsStyleKey(e.0) {
        FoldLast(st, StyleEntries(init), e);
      } else {
        assert StyleEntries(es) == StyleEntries(init) + [];
        assert StyleEntries(init) + [] == StyleEntries(init);
      }
    }
  }

  /** Without `scale` entries the target fold is a plain overwrite: the
      last `opacity` and the last `x`/`y` entry win, and the rest of the
      style is kept. */
  lemma {:induction false} TargetFoldWithoutScale(st: Style, es: seq<Entry>)
    requires !HasScaleKey(es)
    ensures TargetFold(st, es) == Style(LastValue(es, "opacity", st.opacity),
                                       if LastTranslate(es).Some? then TranslateText(LastTranslate(es).value) else st.transform,
                                       st.transition)
    decreases |es|
  {
    if es != [] {
      var init := es[..|es| - 1];
      assert !HasScaleKey(init) by {
        forall i | 0 <= i < |init| ensures init[i].0 != "scale" {
          assert init[i] == es[i];
        }
      }
      assert es[|es| - 1].0 != "scale";
      TargetFoldWithoutScale(st, init);
    }
  }

  /** Re-running a target without `scale` entries (what a non-`once`
      observer does on every entry into view) changes nothing more. */
  lemma TargetFoldIdempotentWithoutScale(st: Style, es: seq<Entry>)
    requires !HasScaleKey(es)
    ensures TargetFold(TargetFold(st, es), es) == TargetFold(st, es)
  {
    TargetFoldWithoutScale(st, es);
    TargetFoldWithoutScale(TargetFold(st, es), es);
    LastValueIdempotent(es, "opacity", st.opacity);
  }

  lemma {:induction false} LastValueIdempotent(es: seq<Entry>, k: string, d: string)
    ensures LastValue(es, k, LastValue(es, k, d)) == LastValue(es, k, d)
    decreases |es|
  {
    if es != [] && es[|es| - 1].0 != k {
      LastValueIdempotent(es[..|es| - 1], k, d);
    }
  }

  // ---------------------------------------------------------------------
  // The `scale` branch on well-formed transforms

  /** Every value is a rendered number: no parenthesis. */
  predicate PlainValues(es: seq<Entry>) {
    forall i :: 0 <= i < |es| ==> PlainArg(es[i].1)
  }

  lemma TranslatePiece(e: Entry)
    requires IsTranslateKey(e.0) && PlainArg(e.1)
    ensures TranslateText(e) == Render([Call(if e.0 == "y" then "translateY" else "translateX", e.1 + "px")])
    ensures WellFormed([Call(if e.0 == "y" then "translateY" else "translateX", e.1 + "px")])
  {
    var n := if e.0 == "y" then "translateY" else "translateX";
    assert Render([Call(n, e.1 + "px")]) == PieceText(Call(n, e.1 + "px")) + Render([]);
    assert PlainArg(e.1 + "px") by {
      forall i | 0 <= i < |e.1 + "px"| ensures (e.1 + "px")[i] != '(' && (e.1 + "px")[i] != ')' {
        if i < |e.1| { assert (e.1 + "px")[i] == e.1[i]; }
      }
    }
  }

  /** Appending ` scale(v)` to a well-formed transform. */
  lemma AppendScalePiece(ps: seq<Piece>, v: string)
    requires WellFormed(ps) && PlainArg(v)
    ensures var ps' := ps + [Gap, Call("scale", v)];
      && Render(ps') == Render(ps) + " " + ScaleText(v)
      && WellFormed(ps')
      && ScaleCount(ps') == ScaleCount(ps) + 1
      && ps'[|ps'| - 1] == Call("scale", v)
  {
    var tail := [Gap, Call("scale", v)];
    GapScalePiece(v);
    RenderAppend(ps, tail);
    ScaleCountAppend(ps, tail);
    forall i | 0 <= i < |ps + tail| ensures WellFormedPiece((ps + tail)[i]) {
      if i < |ps| { assert (ps + tail)[i] == ps[i]; }
    }
  }

  /** The two pieces ` ` and `scale(v)`. */
  lemma GapScalePiece(v: string)
    requires PlainArg(v)
    ensures Render([Gap, Call("scale", v)]) == " " + ScaleText(v)
    ensures WellFormed([Gap, Call("scale", v)]) && ScaleCount([Gap, Call("scale", v)]) == 1
  {
    var tail := [Gap, Call("scale", v)];
    assert tail[1..] == [Call("scale", v)];
    SingleScalePiece(v);
  }

  /** A transform made of the single call `scale(v)`. */
  lemma SingleScalePiece(v: string)
    requires PlainArg(v)
    ensures Render([Call("scale", v)]) == ScaleText(v)
    ensures WellFormed([Call("scale", v)]) && ScaleCount([Call("scale", v)]) == 1
  {
    assert [Call("scale", v)][1..] == [];
  }

  /** A transform made of the single call written for an `x`/`y` entry. */
  lemma SingleTranslatePiece(e: Entry)
    requires IsTranslateKey(e.0) && PlainArg(e.1)
    ensures ScalesAtMost(TranslateText(e), 0)
  {
    TranslatePiece(e);
    var n := if e.0 == "y" then "translateY" else "translateX";
    assert [Call(n, e.1 + "px")][1..] == [];
    assert ScaleCount([Call(n, e.1 + "px")]) == 0;
  }

  /** The `scale` branch of the target fold on a non-empty well-formed
      transform deletes only the first `scale` call and appends the new one:
      a transform holding exactly one `scale` call still holds exactly one
      afterwards, and it carries the new value. */
  lemma TargetScaleReplacesFragment(st: Style, ps: seq<Piece>, v: string)
    requires WellFormed(ps) && st.transform == Render(ps) && ps != []
    requires PlainArg(v)
    ensures var ps' := DropFirstScale(ps) + [Gap, Call("scale", v)];
      && ApplyTarget(st, ("scale", v)).transform == Render(ps')
      && WellFormed(ps')
      && ScaleCount(ps') == (if ScaleCount(ps) == 0 then 1 else ScaleCount(ps))
      && ps'[|ps'| - 1] == Call("scale", v)
  {
    assert ApplyTarget(st, ("scale", v)).transform ==
      if st.transform != "" then ReplaceScale(st.transform) + " " + ScaleText(v) else ScaleText(v);
    ReplaceScaleOnPieces(ps);
    DropFirstScaleCount(ps);
    AppendScalePiece(DropFirstScale(ps), v);
  }

  /** A transform that is a well-formed sequence of calls holding at most
      `c` `scale` calls. */
  ghost predicate ScalesAtMost(t: string, c: nat) {
    exists ps :: WellFormed(ps) && Render(ps) == t && ScaleCount(ps) <= c
  }

  lemma ScalesAtMostIntro(ps: seq<Piece>, t: string, c: nat)
    requires WellFormed(ps) && Render(ps) == t && ScaleCount(ps) <= c
    ensures ScalesAtMost(t, c)
  {
  }

  lemma ScalesAtMostEmpty()
    ensures ScalesAtMost("", 0)
  {
    assert WellFormed([]) && Render([]) == "" && ScaleCount([]) == 0;
  }

  /** One target step keeps a transform with at most one `scale` call in
      that shape. */
  lemma ApplyTargetKeepsOneScale(st: Style, e: Entry)
    requires ScalesAtMost(st.transform, 1) && PlainArg(e.1)
    ensures ScalesAtMost(ApplyTarget(st, e).transform, 1)
  {
    if IsTranslateKey(e.0) {
      SingleTranslatePiece(e);
      assert ApplyTarget(st, e).transform == TranslateText(e);
    } else if e.0 == "scale" {
      assert e == ("scale", e.1);
      TargetScaleKeepsOne(st, e.1);
    } else {
      assert ApplyTarget(st, e).transform == st.transform;
    }
  }

  /** A target `scale` entry on a transform with at most one `scale` call
      leaves at most one. */
  lemma TargetScaleKeepsOne(st: Style, v: string)
    requires ScalesAtMost(st.transform, 1) && PlainArg(v)
    ensures ScalesAtMost(ApplyTarget(st, ("scale", v)).transform, 1)
  {
    var ps :| WellFormed(ps) && Render(ps) == st.transform && ScaleCount(ps) <= 1;
    var t := ApplyTarget(st, ("scale", v)).transform;
    assert ApplyTarget(st, ("scale", v)).transform ==
      if st.transform != "" then ReplaceScale(st.transform) + " " + ScaleText(v) else ScaleText(v);
    if ps == [] {
      SingleScalePiece(v);
      ScalesAtMostIntro([Call("scale", v)], t, 1);
    } else {
      TargetScaleReplacesFragment(st, ps, v);
      ScalesAtMostIntro(DropFirstScale(ps) + [Gap, Call("scale", v)], t, 1);
    }
  }

  /** The whole target fold, with rendered-number values, keeps at most one
      `scale` call in the transform. */
  lemma {:induction false} TargetFoldKeepsOneScale(st: Style, es: seq<Entry>)
    requires ScalesAtMost(st.transform, 1) && PlainValues(es)
    ensures ScalesAtMost(TargetFold(st, es).transform, 1)
    decreases |es|
  {
    if es != [] {
      var init := es[..|es| - 1];
      assert PlainValues(init) by {
        forall i | 0 <= i < |init| ensures PlainArg(init[i].1) {
          assert init[i] == es[i];
        }
      }
      TargetFoldKeepsOneScale(st, init);
      ApplyTargetKeepsOneScale(TargetFold(st, init), es[|es| - 1]);
    }
  }

  /** How many entries carry the key `scale`. */
  function ScaleEntries(es: seq<Entry>): (r: nat)
    decreases |es|
  {
    if es == [] then 0 else ScaleEntries(es[..|es| - 1]) + (if es[|es| - 1].0 == "scale" then 1 else 0)
  }

  /** An initial `scale` entry adds at most one `scale` call. */
  lemma InitialScaleAddsOne(st: Style, v: string, c: nat)
    requires ScalesAtMost(st.transform, c) && PlainArg(v)
    ensures ScalesAtMost(ApplyInitial(st, ("scale", v)).transform, c + 1)
  {
    var ps :| WellFormed(ps) && Render(ps) == st.transform && ScaleCount(ps) <= c;
    var t := ApplyInitial(st, ("scale", v)).transform;
    assert ApplyInitial(st, ("scale", v)).transform ==
      if st.transform != "" then st.transform + " " + ScaleText(v) else ScaleText(v);
    if ps == [] {
      SingleScalePiece(v);
      ScalesAtMostIntro([Call("scale", v)], t, c + 1);
    } else {
      AppendScalePiece(ps, v);
      ScalesAtMostIntro(ps + [Gap, Call("scale", v)], t, c + 1);
    }
  }

  /** One initial step adds a `scale` call only for a `scale` entry. */
  lemma ApplyInitialScales(st: Style, e: Entry, c: nat)
    requires ScalesAtMost(st.transform, c) && PlainArg(e.1)
    ensures ScalesAtMost(ApplyInitial(st, e).transform, if e.0 == "scale" then c + 1 else c)
  {
    if IsTranslateKey(e.0) {
      SingleTranslatePiece(e);
      assert ApplyInitial(st, e).transform == TranslateText(e);
    } else if e.0 == "scale" {
      assert e == ("scale", e.1);
      InitialScaleAddsOne(st, e.1, c);
    } else {
      assert ApplyInitial(st, e).transform == st.transform;
    }
  }

  /** The initial fold adds at most one `scale` call per `scale` entry. */
  lemma {:induction false} InitialFoldScales(st: Style, es: seq<Entry>, c: nat)
    requires ScalesAtMost(st.transform, c) && PlainValues(es)
    ensures ScalesAtMost(InitialFold(st, es).transform, c + ScaleEntries(es))
    decreases |es|
  {
    if es != [] {
      var init := es[..|es| - 1];
      assert PlainValues(init) by {
        forall i | 0 <= i < |init| ensures PlainArg(init[i].1) {
          assert init[i] == es[i];
        }
      }
      InitialFoldScales(st, init, c);
      ApplyInitialScales(InitialFold(st, init), es[|es| - 1], c + ScaleEntries(init));
    }
  }

  // ---------------------------------------------------------------------
  // Properties of the transition builder

  lemma TransitionPartsAppend(a: seq<Entry>, b: seq<Entry>)
    ensures TransitionParts(a + b) == TransitionParts(a) + TransitionParts(b)
  {
  }

  /** The transition string of a concatenation: the two strings joined by
      one space, the space only appearing when both sides are non-empty. So
      each entry contributes its part, in order. */
  lemma TransitionStringAppend(a: seq<Entry>, b: seq<Entry>)
    ensures var x, y := TransitionString(a), TransitionString(b);
      TransitionString(a + b) == if x == "" then y else if y == "" then x else x + " " + y
  {
    TransitionPartsAppend(a, b);
    JoinDropEmptyAppend(TransitionParts(a), TransitionParts(b), " ");
  }

  /** One entry alone: `duration` and `delay` produce their parts, other
      keys nothing. */
  lemma TransitionStringSingle(e: Entry)
    ensures TransitionString([e]) == TransitionPart(e)
    ensures TransitionPart(e) == "" <==> !IsTransitionKey(e.0)
  {
    assert TransitionParts([e]) == [TransitionPart(e)];
  }

  /** The default transition spec yields `all 0.5s`. */
  lemma DefaultTransitionString()
    ensures TransitionString(DefaultTransition) == "all 0.5s"
  {
    TransitionStringSingle(DefaultTransition[0]);
  }

  /** The transition string is empty exactly when no entry is `duration`
      or `delay`. */
  lemma {:induction false} TransitionStringEmptyIff(es: seq<Entry>)
    ensures TransitionString(es) == "" <==> forall i :: 0 <= i < |es| ==> !IsTransitionKey(es[i].0)
    decreases |es|
  {
    if es != [] {
      var init, e := es[..|es| - 1], es[|es| - 1];
      assert es == init + [e];
      TransitionStringEmptyIff(init);
      TransitionStringAppend(init, [e]);
      TransitionStringSingle(e);
      if TransitionString(es) == "" {
        forall i | 0 <= i < |es| ensures !IsTransitionKey(es[i].0) {
          if i < |init| { assert es[i] == init[i]; }
        }
      }
    }
  }
}

=== FILE: text.dfy ===
/**
 Character classes and string helpers shared by the validators and the
 style engine: JavaScript's notion of whitespace (used both by
 `String.prototype.trim` and by the regular-expression classes `\s`/`\S`),
 `trim`, and `Array.prototype.join`.
 */
module Text {

  /** JavaScript whitespace: the WhiteSpace and LineTerminator code points
      of ECMAScript (section 12.2 and 12.3 of ECMA-262). Both `trim` and the
      regex class `\s` use exactly this set. */
  predicate IsSpace(c: char) {
    || c == '\t' || c == '\n' || c == '\U{B}' || c == '\U{C}' || c == '\r'
    || c == ' ' || c == '\U{A0}' || c == '\U{1680}'
    || ('\U{2000}' <= c <= '\U{200A}')
    || c == '\U{2028}' || c == '\U{2029}' || c == '\U{202F}'
    || c == '\U{205F}' || c == '\U{3000}' || c == '\U{FEFF}'
  }

  /** Every character of `s` is whitespace (vacuously true of ""). */
  predicate IsBlank(s: string) {
    forall i :: 0 <= i < |s| ==> IsSpace(s[i])
  }

  /** Every character of `s[lo..hi]` is non-whitespace, i.e. matched by `\S`. */
  predicate NonSpaceRun(s: string, lo: int, hi: int)
    requires 0 <= lo <= hi <= |s|
  {
    forall k :: lo <= k < hi ==> !IsSpace(s[k])
  }

  /** Leading whitespace removed. */
  function TrimStart(s: string): (r: string) {
    if |s| > 0 && IsSpace(s[0]) then TrimStart(s[1..]) else s
  }

  /** Trailing whitespace removed. */
  function TrimEnd(s: string): (r: string) {
    if |s| > 0 && IsSpace(s[|s| - 1]) then TrimEnd(s[..|s| - 1]) else s
  }

  /** `String.prototype.trim`. */
  function Trim(s: string): (r: string) {
    TrimEnd(TrimStart(s))
  }

  /** What `TrimStart` leaves is a suffix of `s`, all that it removed is
      whitespace, and what remains does not start with whitespace. */
  lemma {:induction false} TrimStartSpec(s: string)
    ensures var r := TrimStart(s);
      && |r| <= |s| && r == s[|s| - |r|..]
      && IsBlank(s[..|s| - |r|])
      && (r == [] || !IsSpace(r[0]))
  {
    if |s| > 0 && IsSpace(s[0]) {
      TrimStartSpec(s[1..]);
      var r := TrimStart(s);
      assert s[1..][|s| - 1 - |r|..] == s[|s| - |r|..];
      assert s[..|s| - |r|] == [s[0]] + s[1..][..|s| - 1 - |r|];
    } else {
      assert s[..0] == [];
    }
  }

  /** What `TrimEnd` leaves is a prefix of `s`, all that it removed is
      whitespace, and what remains does not end with whitespace. */
  lemma {:induction false} TrimEndSpec(s: string)
    ensures var r := TrimEnd(s);
      && |r| <= |s| && r == s[..|r|]
      && IsBlank(s[|r|..])
      && (r == [] || !IsSpace(r[|r| - 1]))
  {
    if |s| > 0 && IsSpace(s[|s| - 1]) {
      TrimEndSpec(s[..|s| - 1]);
      var r := TrimEnd(s);
      assert s[..|s| - 1][..|r|] == s[..|r|];
      assert s[|r|..] == s[..|s| - 1][|r|..] + [s[|s| - 1]];
    } else {
      assert s[|s|..] == [];
    }
  }

  /** A string trims to "" (is falsy after `trim()`) exactly when it is
      entirely whitespace. */
  lemma TrimEmptyIffBlank(s: string)
    ensures Trim(s) == [] <==> IsBlank(s)
  {
    var t := TrimStart(s);
    TrimStartSpec(s);
    TrimEndSpec(t);
    var n := |s| - |t|;
    if t == [] {
      assert s[..n] == s;
    } else {
      assert t[0] == s[n];
      assert !IsBlank(s);
    }
  }

  /** `Array.prototype.join(sep)` on strings. */
  function Join(parts: seq<string>, sep: string): (r: string)
    decreases |parts|
  {
    if |parts| == 0 then ""
    else if |parts| == 1 then parts[0]
    else parts[0] + sep + Join(parts[1..], sep)
  }

  /** Joining a concatenation of two non-empty lists puts exactly one
      separator between the two joined halves. */
  lemma {:induction false} JoinAppend(a: seq<string>, b: seq<string>, sep: string)
    requires |a| > 0 && |b| > 0
    ensures Join(a + b, sep) == Join(a, sep) + sep + Join(b, sep)
    decreases |a|
  {
    if |a| == 1 {
      assert (a + b)[1..] == b;
    } else {
      assert (a + b)[1..] == a[1..] + b;
      JoinAppend(a[1..], b, sep);
    }
  }

  /** `Array.prototype.filter(Boolean)` on strings: the empty string is the
      only falsy string, so exactly the non-empty elements survive, in order. */
  function DropEmpty(parts: seq<string>): (r: seq<string>)
    ensures |r| <= |parts|
    ensures forall i :: 0 <= i < |r| ==> r[i] != []
    ensures forall i :: 0 <= i < |parts| && parts[i] != [] ==> parts[i] in r
    ensures forall i :: 0 <= i < |r| ==> r[i] in parts
  {
    if |parts| == 0 then []
    else if parts[0] == [] then DropEmpty(parts[1..])
    else [parts[0]] + DropEmpty(parts[1..])
  }

  /** One part survives exactly when it is non-empty; with
      `DropEmptyAppend` this fixes the order of the survivors. */
  lemma DropEmptySingle(x: string)
    ensures DropEmpty([x]) == if x == "" then [] else [x]
  {
    assert [x][1..] == [];
  }

  lemma {:induction false} DropEmptyAppend(a: seq<string>, b: seq<string>)
    ensures DropEmpty(a + b) == DropEmpty(a) + DropEmpty(b)
    decreases |a|
  {
    if |a| == 0 {
      assert a + b == b;
    } else {
      assert (a + b)[1..] == a[1..] + b;
      DropEmptyAppend(a[1..], b);
    }
  }

  /** A join of non-empty strings is empty only when there is nothing to
      join. */
  lemma JoinNonEmpty(parts: seq<string>, sep: string)
    requires forall i :: 0 <= i < |parts| ==> parts[i] != []
    ensures Join(parts, sep) == [] <==> parts == []
  {
    if |parts| > 1 {
      assert Join(parts, sep) == parts[0] + sep + Join(parts[1..], sep);
    }
  }

  /** Joining two lists of non-empty strings: the two joins with one
      separator between them, the separator only when both are non-empty. */
  lemma JoinOfNonEmpty(a: seq<string>, b: seq<string>, sep: string)
    requires forall i :: 0 <= i < |a| ==> a[i] != []
    requires forall i :: 0 <= i < |b| ==> b[i] != []
    ensures var x, y := Join(a, sep), Join(b, sep);
      Join(a + b, sep) == if x == "" then y else if y == "" then x else x + sep + y
  {
    JoinNonEmpty(a, sep);
    JoinNonEmpty(b, sep);
    if a == [] {
      assert a + b == b;
    } else if b == [] {
      assert a + b == a;
    } else {
      JoinAppend(a, b, sep);
    }
  }

  /** `filter(Boolean)` then `join`: on a concatenation, the two results
      joined by one separator, the separator only when both are non-empty. */
  lemma JoinDropEmptyAppend(a: seq<string>, b: seq<string>, sep: string)
    ensures var x, y := Join(DropEmpty(a), sep), Join(DropEmpty(b), sep);
      Join(DropEmpty(a + b), sep) == if x == "" then y else if y == "" then x else x + sep + y
  {
    DropEmptyAppend(a, b);
    JoinOfNonEmpty(DropEmpty(a), DropEmpty(b), sep);
  }
}

=== FILE: transform.dfy ===
/**
 The CSS `transform` strings the style engine writes, and the one string
 rewrite it performs on them: `transform.replace(/scale\([^)]*\)/, '')`,
 which deletes the leftmost `scale(...)` fragment.

 The rewrite is modelled character by character, as the regular-expression
 engine scans. Transforms the engine itself builds are sequences of
 `name(arg)` calls and single spaces (`Piece`s); `ReplaceScaleOnPieces`
 shows that on such strings the rewrite deletes exactly the first `scale`
 call.
 */
module Transform {
  import opened Wrappers

  /** The index of the first `)` at or after `from`, if any. */
  function FirstClose(s: string, from: nat): (r: Option<nat>)
    ensures r.Some? ==> from <= r.value < |s| && s[r.value] == ')'
    ensures r.Some? ==> forall k :: from <= k < r.value ==> s[k] != ')'
    ensures r.None? ==> forall k :: from <= k < |s| ==> s[k] != ')'
    decreases |s| - from
  {
    if from >= |s| then None
    else if s[from] == ')' then Some(from)
    else FirstClose(s, from + 1)
  }

  /** The length of the match of `/scale\([^)]*\)/` that starts at the
      first character of `s`, if one does. `[^)]*` is greedy but cannot
      cross a `)`, so the match ends at the first `)` after `scale(`. */
  function ScaleMatchAt(s: string): (r: Option<nat>)
    ensures r.Some? ==> 7 <= r.value <= |s| && s[..6] == "scale(" && s[r.value - 1] == ')'
    ensures r.Some? ==> forall k :: 6 <= k < r.value - 1 ==> s[k] != ')'
    ensures r.Some? <==> |s| >= 6 && s[..6] == "scale(" && exists k :: 6 <= k < |s| && s[k] == ')'
  {
    if |s| >= 6 && s[..6] == "scale(" then
      match FirstClose(s, 6)
      case Some(k) => Some(k + 1)
      case None => None
    else None
  }

  /** `s` contains some match of the pattern: a `scale(` followed, anywhere
      later, by a `)`. */
  ghost predicate HasScaleFragment(s: string) {
    exists i, k | 0 <= i && i + 6 <= k < |s| :: OpensScaleAt(s, i) && s[k] == ')'
  }

  predicate OpensScaleAt(s: string, i: int)
    requires 0 <= i && i + 6 <= |s|
  {
    s[i..i + 6] == "scale("
  }

  /** `String.prototype.replace` with a non-global pattern: the leftmost
      match, if there is one, is deleted; otherwise `s` is returned. */
  function ReplaceScale(s: string): (r: string)
    ensures |r| <= |s|
    decreases |s|
  {
    if |s| == 0 then s
    else
      match ScaleMatchAt(s)
      case Some(n) => s[n..]
      case None => [s[0]] + ReplaceScale(s[1..])
  }

  /** A fragment in the tail is a fragment of the whole. */
  lemma FragmentFromTail(s: string)
    requires |s| > 0 && HasScaleFragment(s[1..])
    ensures HasScaleFragment(s)
  {
    var i, k :| 0 <= i && i + 6 <= k < |s| - 1 && OpensScaleAt(s[1..], i) && s[1..][k] == ')';
    assert s[i + 1..i + 7] == s[1..][i..i + 6];
    assert OpensScaleAt(s, i + 1) && s[k + 1] == ')';
  }

  /** When no match starts at the front, any fragment lies in the tail. */
  lemma FragmentInTail(s: string)
    requires |s| > 0 && ScaleMatchAt(s).None? && HasScaleFragment(s)
    ensures HasScaleFragment(s[1..])
  {
    var i, k :| 0 <= i && i + 6 <= k < |s| && OpensScaleAt(s, i) && s[k] == ')';
    if i == 0 {
      assert false;
    }
    assert s[1..][i - 1..i + 5] == s[i..i + 6];
    assert OpensScaleAt(s[1..], i - 1) && s[1..][k - 1] == ')';
  }

  /** The replacement shortens the string by at least the seven characters
      of `scale()` when the string holds a match, and is the identity
      otherwise. */
  lemma {:induction false} ReplaceScaleDeletesMatch(s: string)
    ensures HasScaleFragment(s) ==> |ReplaceScale(s)| <= |s| - 7
    ensures !HasScaleFragment(s) ==> ReplaceScale(s) == s
    decreases |s|
  {
    if |s| == 0 {
    } else if ScaleMatchAt(s).Some? {
      var n := ScaleMatchAt(s).value;
      assert OpensScaleAt(s, 0) && s[n - 1] == ')';
    } else {
      ReplaceScaleDeletesMatch(s[1..]);
      if HasScaleFragment(s[1..]) {
        FragmentFromTail(s);
      }
      if HasScaleFragment(s) {
        FragmentInTail(s);
      } else {
        assert [s[0]] + s[1..] == s;
      }
    }
  }

  /** One token of a transform the engine builds: a single space, or a
      CSS function call `name(arg)`. */
  datatype Piece = Gap | Call(name: string, arg: string)

  function PieceText(p: Piece): (t: string)
    ensures |t| > 0
  {
    match p
    case Gap => " "
    case Call(name, arg) => name + "(" + arg + ")"
  }

  function Render(ps: seq<Piece>): (t: string)
    ensures t == [] <==> ps == []
  {
    if ps == [] then "" else PieceText(ps[0]) + Render(ps[1..])
  }

  lemma {:induction false} RenderAppend(a: seq<Piece>, b: seq<Piece>)
    ensures Render(a + b) == Render(a) + Render(b)
    decreases |a|
  {
    if a == [] {
      assert a + b == b;
    } else {
      assert (a + b)[1..] == a[1..] + b;
      RenderAppend(a[1..], b);
    }
  }

  /** An argument as the engine writes it: a rendered number, possibly with
      a `px` unit, so no parenthesis. */
  predicate PlainArg(a: string) {
    forall i :: 0 <= i < |a| ==> a[i] != '(' && a[i] != ')'
  }

  /** The three functions the engine writes. */
  predicate KnownName(n: string) {
    n == "translateX" || n == "translateY" || n == "scale"
  }

  predicate WellFormedPiece(p: Piece) {
    p.Call? ==> KnownName(p.name) && PlainArg(p.arg)
  }

  predicate WellFormed(ps: seq<Piece>) {
    forall i :: 0 <= i < |ps| ==> WellFormedPiece(ps[i])
  }

  predicate IsScale(p: Piece) {
    p.Call? && p.name == "scale"
  }

  /** The pieces with their first `scale` call removed, if there is one. */
  function DropFirstScale(ps: seq<Piece>): (r: seq<Piece>) {
    if ps == [] then []
    else if IsScale(ps[0]) then ps[1..]
    else [ps[0]] + DropFirstScale(ps[1..])
  }

  /** How many `scale` calls a transform holds. */
  function ScaleCount(ps: seq<Piece>): (r: nat) {
    if ps == [] then 0 else (if IsScale(ps[0]) then 1 else 0) + ScaleCount(ps[1..])
  }

  lemma {:induction false} ScaleCountAppend(a: seq<Piece>, b: seq<Piece>)
    ensures ScaleCount(a + b) == ScaleCount(a) + ScaleCount(b)
    decreases |a|
  {
    if a == [] {
      assert a + b == b;
    } else {
      assert (a + b)[1..] == a[1..] + b;
      ScaleCountAppend(a[1..], b);
    }
  }

  /** Removing the first `scale` call removes exactly one, when there is
      one, and keeps the rest well-formed. */
  lemma {:induction false} DropFirstScaleCount(ps: seq<Piece>)
    ensures ScaleCount(DropFirstScale(ps)) == if ScaleCount(ps) > 0 then ScaleCount(ps) - 1 else 0
    ensures WellFormed(ps) ==> WellFormed(DropFirstScale(ps))
    decreases |ps|
  {
    if ps != [] && !IsScale(ps[0]) {
      DropFirstScaleCount(ps[1..]);
      assert DropFirstScale(ps)[1..] == DropFirstScale(ps[1..]);
    }
  }

  /** Where no match starts at the front, the first character is kept and
      the scan moves on. */
  lemma ReplaceScaleStep(s: string)
    requires |s| > 0 && ScaleMatchAt(s).None?
    ensures ReplaceScale(s) == [s[0]] + ReplaceScale(s[1..])
  {
  }

  /** No match of the pattern starts at any of the first `n` positions. */
  predicate NoMatchWithin(s: string, n: nat)
    requires n <= |s|
    decreases n
  {
    n == 0 || (ScaleMatchAt(s).None? && NoMatchWithin(s[1..], n - 1))
  }

  /** Dropping the first character shifts the match-free prefix. */
  lemma NoMatchShift(s: string, n: nat)
    requires 0 < n <= |s|
    requires forall j :: 0 <= j < n ==> ScaleMatchAt(s[j..]).None?
    ensures forall j :: 0 <= j < n - 1 ==> ScaleMatchAt(s[1..][j..]).None?
  {
    forall j | 0 <= j < n - 1 ensures ScaleMatchAt(s[1..][j..]).None? {
      assert s[1..][j..] == s[j + 1..];
    }
  }

  /** The position-wise statement of a match-free prefix implies the
      recursive one. */
  lemma {:induction false} NoMatchWithinFromAll(s: string, n: nat)
    requires n <= |s|
    requires forall j :: 0 <= j < n ==> ScaleMatchAt(s[j..]).None?
    ensures NoMatchWithin(s, n)
    decreases n
  {
    if n > 0 {
      assert s[0..] == s;
      NoMatchShift(s, n);
      NoMatchWithinFromAll(s[1..], n - 1);
    }
  }

  /** Keeping one character, then `n - 1` more, keeps `n`. */
  lemma PrefixStep(s: string, n: nat, r0: string, r1: string, r2: string)
    requires 0 < n <= |s|
    requires r0 == [s[0]] + r1 && r1 == s[1..][..n - 1] + r2
    ensures r0 == s[..n] + r2
  {
    assert [s[0]] + s[1..][..n - 1] == s[..n];
  }

  /** Scanning past a prefix that holds no match start leaves that prefix
      alone. */
  lemma {:induction false} ReplaceScaleSkips(s: string, n: nat)
    requires n <= |s| && NoMatchWithin(s, n)
    ensures ReplaceScale(s) == s[..n] + ReplaceScale(s[n..])
    decreases n
  {
    if n == 0 {
      assert s[..0] + s[0..] == s;
    } else {
      ReplaceScaleStep(s);
      ReplaceScaleSkips(s[1..], n - 1);
      assert s[1..][n - 1..] == s[n..];
      PrefixStep(s, n, ReplaceScale(s), ReplaceScale(s[1..]), ReplaceScale(s[n..]));
    }
  }

  /** A gap, a `translateX` call or a `translateY` call contains no start of
      a match, whatever follows it. */
  lemma NoMatchInsideOther(p: Piece, b: string, j: int)
    requires WellFormedPiece(p) && !IsScale(p)
    requires 0 <= j < |PieceText(p)|
    ensures ScaleMatchAt((PieceText(p) + b)[j..]).None?
  {
    var a := PieceText(p);
    var t := (a + b)[j..];
    if |t| >= 6 {
      var w := t[..6];
      if p.Gap? {
        assert a == " " && j == 0;
        assert w[0] == (a + b)[0] == ' ';
      } else {
        var n := p.name;
        var last := |a| - 1;
        assert a == n + "(" + p.arg + ")";
        if j + 5 >= last {
          assert w[last - j] == a[last] == ')';
        } else if j + 5 > |n| {
          assert w[5] == p.arg[j + 5 - |n| - 1];
        } else if j + 5 < |n| {
          assert w[5] == n[j + 5];
        } else {
          assert n == "translateX" || n == "translateY";
          assert j == 5;
          assert w[4] == a[9] == n[9];
        }
      }
      assert w != "scale(";
    }
  }

  /** A `scale` call at the front is exactly the match, so replacing deletes
      it and keeps everything after it. */
  lemma ReplaceScaleAtFront(p: Piece, b: string)
    requires WellFormedPiece(p) && IsScale(p)
    ensures ReplaceScale(PieceText(p) + b) == b
  {
    var a := PieceText(p);
    var s := a + b;
    assert a == "scale(" + p.arg + ")";
    assert s[..6] == "scale(";
    var k := |a| - 1;
    assert s[k] == ')';
    forall i | 6 <= i < k ensures s[i] != ')' {
      assert s[i] == p.arg[i - 6];
    }
    assert FirstClose(s, 6) == Some(k);
    assert s[k + 1..] == b;
  }

  /** On a well-formed transform the regex replacement deletes exactly the
      first `scale` call and nothing else. */
  lemma {:induction false} ReplaceScaleOnPieces(ps: seq<Piece>)
    requires WellFormed(ps)
    ensures ReplaceScale(Render(ps)) == Render(DropFirstScale(ps))
    decreases |ps|
  {
    if ps == [] {
    } else if IsScale(ps[0]) {
      ReplaceScaleAtFront(ps[0], Render(ps[1..]));
    } else {
      var a := PieceText(ps[0]);
      forall j | 0 <= j < |a| ensures ScaleMatchAt((a + Render(ps[1..]))[j..]).None? {
        NoMatchInsideOther(ps[0], Render(ps[1..]), j);
      }
      NoMatchWithinFromAll(a + Render(ps[1..]), |a|);
      ReplaceScaleSkips(a + Render(ps[1..]), |a|);
      assert (a + Render(ps[1..]))[|a|..] == Render(ps[1..]);
      ReplaceScaleOnPieces(ps[1..]);
      assert DropFirstScale(ps) == [ps[0]] + DropFirstScale(ps[1..]);
      assert ([ps[0]] + DropFirstScale(ps[1..]))[1..] == DropFirstScale(ps[1..]);
    }
  }
}

=== FILE: wrappers.dfy ===
/** An optional value: an absent prop, a missing match, an unset field. */
module Wrappers {

  datatype Option<+T> = None | Some(value: T) {

    /** The value, or `default` when absent (a JavaScript default parameter
        or `a || b` on an object-valued prop). */
    function GetOr(default: T): (r: T) {
      match this
      case Some(v) => v
      case None => default
    }
  }
}
